=== FILE: README.md ===
# PLEnvironment interpreter, modelled in Dafny

This is a model of the interpreter behind the PLEnvironment drawing
environment: the C# class `Parser` and the `Circle` shape. A user's program
is a block of text. Each line is one of:

- a drawing command (`moveto 50,50`, `circle 10,20,30`, `fill on`);
- an assignment (`a = 10 - 2 * 3`);
- a condition (`if a < 5` … `endif`);
- a loop (`while a < 5` … `endwhile`);
- a method declaration (`method f a b` … `endmethod`) or a call (`f(1,2)`).

The interpreter keeps three pieces of state:

- `Variables`, a string-to-string dictionary;
- an error string, which `displayError` hands to the painter and then clears;
- the painter it draws on.

Every operation is a pure function over immutable data:

- `Commands.ParseCommand` is `parseCommand`: the command dispatcher and how it resolves parameters.
- `Evaluator.ParseUsingLexer` is `parseUsingLexer`: the left-to-right arithmetic fold of an assignment.
- `Evaluator.ParseUsingIf` is `parseUsingIf`: the one comparison of an `if` or `while` header.
- `Engine.Step` is one turn of `parseEditor`'s line-pointer loop.
  - Outside a loop it walks `lineNum`; inside a loop it walks `whileNum`.
  - `cursor` and `currentFunction` are fields of the immutable `Machine`.
  - `Engine.Run` iterates `Step` under a fuel bound.
- `Engine.DisplayError` is `displayError`.
- `Shapes.SetCircle` and `Shapes.DrawCircle` are `Circle.set` and `Circle.draw`.

The collaborators the interpreter cannot see into are parameters:

- The lexer is a function from a line to tokens (`Tokens.Lexer`).
- The painter (`Effects.Painter`) says which of its calls throw. Calls that return normally become `Effects.Event`s in the session's trace.
- An uncaught .NET exception becomes a `Wrappers.Fault`. The run then stops with the session as it was when the exception was thrown.

How C# semantics are modelled:

- Integers are C#'s `int`: `+ - *` wrap around (`Ints.Wrap`) and `lineNum++` wraps (`Ints.Inc`).
- `/` and `%` truncate toward zero (`Ints.Quot`, `Ints.Rem`). `int.MinValue / -1` and `int.MinValue % -1` throw an overflow.
- `Int32.Parse` tells a `FormatException` (which `parseCommand` catches) from an `OverflowException` (which it does not).

Method descriptors share the dictionary with scalars, as the text
`"start,last,a|b"` (`Store.Descriptor`, `Store.LookupMethod`). So a header
whose name is already a variable crashes, as `Variables.Add` does, and a
call to a scalar's name indexes past the split fields.

Behaviours of the code worth knowing:

- A `while` body is not dispatched through the full classification (Parser.cs:437-520). A nested `while` line goes to `parseCommand` only when none of the earlier body tests matches it: `while a <= 5` holds `=` and goes to the assignment evaluator, `while diff < 5` holds `if` (in `diff`) and goes to the condition branch, and a line with a parenthesised group and no `method` is taken for a call.
- An `endmethod` met before any method has been called jumps back to line 1 (Parser.cs:347, 368, 456): the remembered call line starts at 0, and the loop increment follows. With no call above it, such a program never ends (`Engine.StrayEndMethod`).
- `endif` inside a loop body does not advance the body pointer (Parser.cs:490-493). Under a true header the loop therefore makes no progress (`Engine.EndifStalls`).
- `endwhile` under a true header does not leave the loop. It sends the body pointer back to the line after the header (Parser.cs:439-442, 523).
- Failures inside assignments and commands are not all recovered. An unbound variable, a division by zero, an `int.MinValue / -1` or a numeral out of `int` range ends the run, like the structural faults.
- A false `if` skips to the first line at or after it that contains `endif`. There is no nesting-aware match. With no such line, only the next line is skipped.
- Body commands are reported with the 0-based body index. Top-level commands are reported with `lineNum + 1` (Parser.cs:520 vs 559).

## Model

| member | source | states |
|---|---|---|
| Ints.Wrap | Parser.cs:229-243 | unchecked `int` arithmetic: the result equals the exact value when it fits and is congruent to it modulo 2^32 otherwise |
| Ints.Inc | Parser.cs:349 | `x++` adds one below `int.MaxValue` and wraps to `int.MinValue` at it |
| Ints.QuotRem | Parser.cs:229-240 | C# quotient and remainder recompose the dividend; the remainder is smaller than the divisor in magnitude and takes the dividend's sign; the quotient is truncated toward zero |
| Ints.QuotInRange | Parser.cs:238-239 | the only `int` division whose quotient leaves the `int` range is `int.MinValue / -1` |
| Text.ContainsOccurs | Parser.cs:355 | `String.Contains` holds exactly when the word occurs at some position of the line |
| Text.ContainsTail | Parser.cs:358-371 | a line containing a word contains each of its tails, so an `endmethod` line is also a `method` line |
| Text.KeywordTails | Parser.cs:358-371 | an `endmethod` line is also a `method` line, and an `endif` line also an `if` line |
| Text.Contains | Parser.cs:355 | the empty word occurs in every line, and a word that occurs is no longer than the line |
| Text.FirstContaining | Parser.cs:385-391 | the forward scan for `endmethod` stops at the first line containing the word, or at the end of the program when none does |
| Text.Split | Parser.cs:343 | `String.Split` gives at least one piece, none holding the separator, and the pieces joined with it give back the input |
| Text.SplitJoin | Parser.cs:406-407 | splitting a joined list of separator-free pieces gives the list back |
| Text.TrimStartMeaning | Parser.cs:43 | what trimming removes at the front is a run of white space, and what remains starts with a visible character |
| Text.TrimEndMeaning | Parser.cs:43 | what trimming removes at the back is a run of white space, and what remains ends with a visible character |
| Text.Trim | Parser.cs:43 | `Trim` never lengthens the line, and what it leaves is empty or starts and ends with a visible character |
| Text.TrimEmpty | Parser.cs:43 | trimming leaves nothing exactly when every character is white space |
| Text.IsBlank | Parser.cs:352 | `String.IsNullOrWhiteSpace` holds exactly when trimming leaves nothing |
| Text.TrimUntouched | Parser.cs:43 | a line with visible characters at both ends is not changed by `Trim` |
| Text.ToLower | Parser.cs:43 | lowering keeps the length, maps each character, and leaves no upper-case ASCII letter |
| Text.ToLowerIdempotent | Parser.cs:43 | lowering a lowered line changes nothing |
| Text.HasParenGroupMeaning | Parser.cs:355 | the regex `(\(.*\))` matches exactly when a `(` is followed later on the same line (no line feed between) by a `)` |
| Numerals.Int32Parse | Parser.cs:127-129 | `Int32.Parse` succeeds exactly on a numeral in the `int` range, with its value; other text is a `FormatException` and an out-of-range numeral an `OverflowException` |
| Numerals.ParseInteger | Parser.cs:127-129 | a run of digits, with an optional leading sign, denotes its value; text of white space alone is no numeral; Numerals.ParseIntegerMeaning gives the converse |
| Numerals.Strip | Parser.cs:127-129 | the white space `Int32.Parse` skips: what remains neither starts nor ends with it, and nothing remains exactly when the text is white space throughout |
| Numerals.ParseIntegerMeaning | Parser.cs:127-129 | `Int32.Parse` accepts exactly the text that is a numeral (digits, with at most one leading sign) once the surrounding white space is skipped, and that white space does not change the value |
| Numerals.StripPadding | Parser.cs:127-129 | white space of any length before and after a numeral is skipped: the padded text strips back to the numeral |
| Numerals.BlankIsNoNumeral | Parser.cs:127-129 | trimming text of white space alone leaves nothing to parse |
| Numerals.IntToString | Parser.cs:249 | `ToString` of an `int` is a nonempty string of digits with at most a leading minus |
| Numerals.ParseIntegerRoundTrip | Parser.cs:249-253 | the numeral printed for any integer denotes that integer |
| Numerals.Int32ParseRoundTrip | Parser.cs:127 | `Int32.Parse(n.ToString()) == n` for every `int`: a stored result reads back unchanged |
| Numerals.IntToStringSeparators | Parser.cs:395 | printed line numbers never contain the descriptor separators (comma and pipe) |
| Store.FormalTextJoin | Parser.cs:374-393 | the formal field built by the header loop is the header's identifiers joined by pipes, empty when there are none |
| Store.LookupMethod | Parser.cs:406-407 | reading a name's descriptor fails with `KeyNotFound` for a missing name and yields at least one formal on success |
| Store.DescriptorFields | Parser.cs:395 | a stored descriptor splits on `,` into exactly its start, last and formal fields |
| Store.DescriptorRoundTrip | Parser.cs:395-407 | a descriptor written for formals reads back as its start line and exactly those formals, when no formal holds a comma or a pipe |
| Store.EmptyFormalsRoundTrip | Parser.cs:392-407 | a method declared without parameters reads back the single formal `""` |
| Store.Unbind | Parser.cs:362-366 | removing formals deletes exactly those names and keeps every other entry's value |
| Store.Bind | Parser.cs:417-428 | binding adds exactly the formals' names and keeps every entry not named by a formal |
| Store.BindValues | Parser.cs:417-428 | with distinct formals, each formal ends up holding its own actual |
| Store.BindThenUnbind | Parser.cs:362-366 | call then return leaves the store without the formals: earlier values of those names are lost, not restored |
| Effects.FormatEntry | Parser.cs:74-76 | an error record's text is the bracketed time stamp, a space, the message, then ` at line N` exactly when the line is not 0, then `.` and a line break |
| Effects.LineSuffix | Parser.cs:75 | a record with a line number reads as the record without one whose message ends in ` at line N` |
| Effects.FormatLogEmpty | Parser.cs:572 | the error text is empty exactly when no record was logged |
| Effects.FormatLogAppend | Parser.cs:74-76 | logging more records appends their text to the error string |
| Shapes.SetCircle | Circle.cs:22-27 | `Circle.set` succeeds exactly on a list of at least three values and otherwise fails with an index error |
| Shapes.SetCircleReads | Circle.cs:24-26 | the centre is `list[0]`, `list[1]`, the radius `list[2]`, and elements after index 2 are ignored |
| Shapes.DrawCircle | Circle.cs:29-36 | one ellipse is drawn, filled with the brush exactly when fill is on and outlined with the pen otherwise |
| Shapes.DrawnBox | Circle.cs:33-35 | without overflow the box is `(x - radius, y - radius, 2 radius, 2 radius)` in both fill modes |
| Evaluator.ApplyOp | Parser.cs:227-244 | an operator outside `% + - / *` leaves the accumulator unchanged; `/` and `%` fail exactly on a zero divisor (divide by zero) or `int.MinValue` by `-1` (overflow) |
| Evaluator.WrappingMeaning | Parser.cs:232-243 | `+`, `-`, `*` never fail; they are exact when the result fits and wrap modulo 2^32 otherwise |
| Evaluator.RemInRange | Parser.cs:229-230 | the C# remainder of two `int`s is an `int` |
| Evaluator.DivisionMeaning | Parser.cs:229-240 | `/` and `%` of the fold recompose the accumulator, with the remainder smaller than the divisor and of the accumulator's sign |
| Evaluator.FoldSnoc | Parser.cs:223-245 | each further operand combines the running result with the next dequeued operator |
| Evaluator.FoldFaultSticks | Parser.cs:223-245 | an exception part-way through the fold is the fold's outcome |
| Evaluator.FoldLoop | Parser.cs:223-245 | the loop with a running result and an operator queue computes the fold |
| Evaluator.FoldIgnoresSurplus | Parser.cs:224-227 | operators beyond the ones the operands consume are never dequeued |
| Evaluator.Fold | Parser.cs:223-245 | a single operand is the result; a result needs at least one dequeued operator per further operand; the only exceptions are an empty queue, a division by zero and an overflow |
| Evaluator.NoPrecedence | Parser.cs:223-245 | `10 - 2 * 3` folds to 24, i.e. `(10 - 2) * 3` |
| Evaluator.Operand | Parser.cs:216-219 | an identifier not in the store fails with `KeyNotFound` for that name; the other faults are those of `int.Parse` |
| Evaluator.OperandTokens | Parser.cs:214-219 | the number and identifier tokens of a range, in order: none of them is an operator |
| Evaluator.OperatorTexts | Parser.cs:220-221 | the operator texts of a range, in order; with the operand tokens they account for every token of the range |
| Evaluator.ResolvableStep | Parser.cs:214-219 | a range that starts with an operand resolves exactly when that operand and the rest resolve |
| Evaluator.Gather | Parser.cs:214-222 | a successful split has as many operands and operators together as the range has tokens; which token lands where is stated by Evaluator.GatherFilters |
| Evaluator.GatherFails | Parser.cs:214-222 | the split fails exactly when some operand token of the range has no value, and then with a `KeyNotFound`, format or overflow error |
| Evaluator.GatherFilters | Parser.cs:214-222 | the operator queue is the range's operator texts in order, and the operand list holds the value of each operand token of the range, in order |
| Evaluator.GatherOkStep | Parser.cs:214-222 | the split succeeds exactly when the first token is an operator or resolves and the split of the rest succeeds |
| Evaluator.Values | Parser.cs:214-222 | the values of operand tokens that all resolve: one per token, each the token's value |
| Evaluator.GatherOperand | Parser.cs:214-219 | an operand token is parsed and put at the front of the operand list, the operator queue untouched |
| Evaluator.GatherOperator | Parser.cs:220-221 | an operator token is put at the front of the queue, the operand list untouched |
| Evaluator.Evaluate | Parser.cs:212-245 | a right-hand side without operands fails with an index error (`numbersList[0]`); a value needs every operand resolved and an operator for each gap between operands; when every operand resolves, the result is the left-to-right fold of the operand values with the operator texts in order |
| Evaluator.Assignment | Parser.cs:201-284 | from any point of the token loop, completed or not, every entry other than the first identifier's is left as it was |
| Evaluator.ParseUsingLexer | Parser.cs:196-286 | an assignment line, completed or not, changes at most the entry of its first identifier |
| Evaluator.ExpressionAssignment | Parser.cs:212-256 | `x = e` with more than three tokens stores the fold of `e` as decimal text under `x`, or stops with the fold's exception and the store unchanged |
| Evaluator.CopyAssignment | Parser.cs:261-282 | `x = 5` stores the literal's text, `x = y` copies `y`'s entry, and an unknown `y` fails with `KeyNotFound` and no change |
| Evaluator.AssignedValueReadsBack | Parser.cs:247-254 | the value an assignment stored reads back as the computed `int` |
| Evaluator.NumberOperand | Parser.cs:218-219 | a number token holding a printed `int` parses to that `int` |
| Evaluator.ThreeOperands | Parser.cs:214-222 | `a o1 b o2 c` gathers into the three operand values and the two operators, in order |
| Evaluator.ExampleEvaluates | Parser.cs:212-245 | the right-hand side `10 - 2 * 3` evaluates to 24 |
| Evaluator.AssignmentExample | Parser.cs:201-256 | the line `a = 10 - 2 * 3` stores `"24"` under `a` and changes nothing else |
| Evaluator.Compare | Parser.cs:308-328 | an operator other than the six comparisons gives `false` |
| Evaluator.CompareNegated | Parser.cs:308-328 | each of the six comparisons has its complement among them |
| Evaluator.ConditionOperands | Parser.cs:294-306 | tokens 1 to 3 of a header give the two operand values, compared with the operator between them |
| Evaluator.Condition | Parser.cs:288-331 | a condition is the comparison of its two operands' values, and `false` for an unsupported operator |
| Evaluator.ConditionOf | Parser.cs:288-331 | fewer than four tokens make `GetRange(1, 3)` fail; an unbound left operand fails with `KeyNotFound`; a value exists exactly when tokens 1 to 3 hold at least two operands and all of them resolve; the only faults are index, `KeyNotFound`, format and overflow errors |
| Evaluator.ParseUsingIf | Parser.cs:288-331 | a line of fewer than four tokens fails with an index error; the only faults are index, `KeyNotFound`, format and overflow errors |
| Commands.Words | Parser.cs:43-46 | splitting the tidied line on spaces always gives a command word |
| Commands.Resolve | Parser.cs:125-129 | a parameter's value is the integer its variable's entry denotes when it names a variable, else the one its own text denotes; it resolves exactly when that text (the entry or the parameter) is a numeral in the `int` range; it is a format error exactly when that text is no numeral; the only faults are format and overflow errors |
| Commands.FirstFailure | Parser.cs:125-129 | finds the first parameter whose value (its variable's entry when it names one, else its own text) does not parse as an `int`; every parameter before it parses |
| Commands.ResolveAll | Parser.cs:122-138 | the parsing loop yields each parameter's value in order up to the first failure, which is a format or an overflow error |
| Commands.Padded | Parser.cs:121-143 | the array handed on after a format error keeps the parsed values and holds 0 in the unfilled slots |
| Commands.SetOption | Parser.cs:65-110 | `fill` and `pen` make exactly one painter call or log exactly one record, reported at the given line |
| Commands.Motion | Parser.cs:112-152 | a motion command only appends, at the given line; an escaping exception is an overflow with nothing changed |
| Commands.Shape | Parser.cs:155-185 | a shape command logs at most one record; an escaping exception is an overflow with nothing changed |
| Commands.ParseCommand | Parser.cs:40-194 | a command only appends records at its line and painter calls; an unknown word logs exactly "Command not recognized" and nothing else; the only escaping exception is an overflow |
| Commands.MotionDispatch | Parser.cs:58-112 | `drawto`, `moveto`, `clear` and `reset` go to the motion branch |
| Commands.ShapeDispatch | Parser.cs:58-155 | `circle`, `square`, `rect` and `triangle` go to the shape branch |
| Commands.CaseInsensitive | Parser.cs:43 | a line and its lower-cased form behave the same |
| Commands.OptionArity | Parser.cs:65-110 | `fill`/`pen` with other than one parameter log the wrong-count record and make no call; with one they call the painter with it or log its rejection message |
| Commands.FirstUnparsableStops | Parser.cs:122-138 | the parsing loop stops at the first unparsable parameter with a format error, having parsed exactly the ones before it |
| Commands.ShapeRejectsUnparsable | Parser.cs:160-177 | a shape with an unparsable parameter logs "Parameters not valid" and is not drawn |
| Commands.MotionPadsUnparsable | Parser.cs:118-152 | a motion command with an unparsable parameter logs "Parameters not valid" and is still executed with 0 in the unparsed slots |
| Commands.MotionResolves | Parser.cs:118-152 | a motion command whose parameters resolve calls the painter with those values, variables read from the store, and logs nothing unless the painter rejects the count |
| Commands.CircleArity | Parser.cs:155-185 | with `Circle.set` deciding the painter's answer, a circle draws exactly when it has at least three values and logs the wrong-count record otherwise |
| Commands.AssignedParameter | Parser.cs:126-127 | a parameter naming a variable that holds a printed `int` resolves to that `int` |
| Engine.Leave | Parser.cs:358-367 | while no method has been called in the run, `endmethod` keeps the store; afterwards it only removes keys and keeps the values of the rest, and succeeds only when the last called method's entry still reads back; which keys go (that method's formals) is stated by Engine.Return |
| Engine.EndMethod | Parser.cs:358-369 | `endmethod` keeps the program and only appends; it never finishes the run, though it may crash |
| Engine.Header | Parser.cs:371-398 | a header keeps the program and only appends; it never finishes the run, though it may crash |
| Engine.Actuals | Parser.cs:409-415 | the actuals resolve exactly when every identifier among them is bound; otherwise `KeyNotFound` names an unbound one |
| Engine.PlanCall | Parser.cs:402-415 | a call reads the method's start and formals from its descriptor and the actuals from its tokens; a line with no token fails |
| Engine.Call | Parser.cs:400-431 | a call keeps the program and only appends; it never finishes the run, though it may crash |
| Engine.SkipTarget | Parser.cs:538-548 | a false `if` skips to the first line at or after it containing `endif`, or to the next line when there is none |
| Engine.IfLine | Parser.cs:533-550 | an `if` line never changes the session |
| Engine.AssignLine | Parser.cs:552-555 | an assignment line keeps the program and only appends; it never finishes the run, though it may crash |
| Engine.CommandLine | Parser.cs:558-559 | a command line appends only records reported at the line number given |
| Engine.ScanStep | Parser.cs:349-561 | the top-level loop ends exactly when the line pointer passes the last line, with the session unchanged by that step |
| Engine.LoopStep | Parser.cs:433-437 | a turn of a `while` loop keeps the program and only appends; it never finishes the run, though it may crash |
| Engine.BodyStep | Parser.cs:437-524 | a body line under a true header keeps the program and only appends; it never finishes the run, though it may crash |
| Engine.Step | Parser.cs:349-561 | a step keeps the program and only appends; the run ends only at the top level past the last line |
| Engine.Start | Parser.cs:343 | the program's lines joined with line feeds give back the editor text, and there is at least one line |
| Engine.DisplayError | Parser.cs:569-577 | the log is emptied and the store kept; the session changes exactly when there was a record, and then one painter call is appended |
| Engine.IterateAppendsOnly | Parser.cs:349-561 | iterating any step that only appends, however far, only appends |
| Engine.Run | Parser.cs:349-561 | however far a run goes, it only appends to the error log and the painter trace |
| Engine.ParseEditor | Parser.cs:339-562 | `parseEditor` keeps the history of the error log and the painter trace: however far it goes, it only appends to those of the session it starts from (the store itself is overwritten and shrunk) |
| Engine.StepsAppendOnly | Parser.cs:349-561 | every step, at top level or in a loop, only appends |
| Engine.BlankLineSkipped | Parser.cs:352 | a blank line is skipped with no report |
| Engine.TopLevelCommand | Parser.cs:558-559 | a non-structural line goes to `parseCommand` with line `lineNum + 1`, and an unknown word logs "Command not recognized" there |
| Engine.OneLineProgram | Parser.cs:343-559 | a one-line program holding an unknown command finishes with that one record at line 1 |
| Engine.EmptyProgram | Parser.cs:343-352 | an empty editor finishes with nothing changed |
| Engine.Declaration | Parser.cs:371-398 | a header stores its descriptor under its name and resumes after the first `endmethod` line without running the body |
| Engine.DeclaredEntry | Parser.cs:374-407 | the stored descriptor is the header's line, the line before its `endmethod` and its identifiers joined by pipes; it reads back as that line and those identifiers, or as the one formal `""` when there are none; no other entry changes |
| Engine.DuplicateDeclaration | Parser.cs:395 | declaring a name the store already holds, scalar or method, crashes with a duplicate key |
| Engine.CallDispatch | Parser.cs:400-488 | a line with a parenthesised group and no `method` is handled as a call, at top level or in a loop body |
| Engine.EndMethodDispatch | Parser.cs:358-457 | an `endmethod` line is handled as a return, at top level or in a loop body |
| Engine.IfDispatch | Parser.cs:495-550 | a condition line is handled by the `if` branch, at top level or in a loop body |
| Engine.AssignDispatch | Parser.cs:514-555 | an assignment line is handled by the assignment branch, at top level or in a loop body |
| Engine.CallEntersBody | Parser.cs:400-488 | a call, at top level or in a loop body, remembers its line and method and jumps past the header; it binds the formals to the actuals exactly when the counts agree |
| Engine.ZeroParameterCall | Parser.cs:407-488 | calling a method declared without parameters binds nothing, at top level or in a loop body |
| Engine.Return | Parser.cs:358-457 | `endmethod`, at top level or in a loop body, resumes after the last call line, removing the called method's formals, or crashes when that method's entry does not read back; before any call it unbinds nothing and resumes after `cursor`, which starts at 0 |
| Engine.StrayEndMethod | Parser.cs:347-368 | from the start of a run, an `endmethod` line at any position sends the run back to line 1, because the remembered call line starts at 0 |
| Engine.Conditional | Parser.cs:495-550 | a true `if`, at top level or in a loop body, falls through to the next line; a false one resumes after the skip target; an unreadable condition crashes; the session never changes |
| Engine.AssignmentStep | Parser.cs:514-555 | an assignment line, at top level or in a loop body, makes the evaluator's store the session's and moves to the next line, or crashes with the evaluator's fault; only the line's target entry can change |
| Engine.LoopEntry | Parser.cs:433-436 | a `while` header starts the body at the line after it |
| Engine.LoopExit | Parser.cs:437-525 | a false header ends the loop and the run resumes after the body line the loop had reached |
| Engine.LoopPastEnd | Parser.cs:439 | a true header with the body pointer past the last line crashes with an index error |
| Engine.LoopRestart | Parser.cs:439-442 | `endwhile` under a true header sends the body pointer back to the line after the header |
| Engine.EndifStalls | Parser.cs:490-493 | under a header that stays true, a body line holding `endif` is never left: every run from there runs out of fuel where it started |
| Engine.IterateStalls | Parser.cs:490-493 | a machine that a step leaves unchanged is never left, whatever the number of steps |
| Engine.EndifStep | Parser.cs:490-493 | a step on a body line holding `endif` under a true header leaves the machine as it was |
| Engine.BodyCommand | Parser.cs:519-520 | a plain body line goes to `parseCommand` reported with the 0-based body index |
| Engine.DisplayErrorDrains | Parser.cs:569-577 | displaying twice shows the log once |
| Engine.DisplayAfterLog | Parser.cs:569-577 | a record logged before a display is shown in one painter call, after the text of the earlier records |

## Left out

- The lexer (`Lexer.Advance`) is not part of this model. Its tokens are taken as given.
- The painter (`Painter`) and the `Shape` base class are not part of this model. Their calls become trace events, and which calls throw is a parameter.
- `Circle.set` assumes the base class's `set(x, y)` stores the centre.
- Rendering through `System.Drawing` is left out; only the box and the fill choice are kept.
- Effects.FormatEntry: the time stamp of each record is one stamp supplied when the log is rendered, not the clock reading at the moment of logging, because the clock is outside the model.
- `Console.WriteLine` in the loop's `endmethod` branch (Parser.cs:452) is debugging output and is left out.
- Termination: a run is bounded by fuel. A run that never ends (a true loop with an `endif` body line, a call cycle) ends as out of fuel, and nothing is claimed about termination.
- Engine.EndMethod, Engine.Header, Engine.Call, Engine.AssignLine, Engine.LoopStep, Engine.BodyStep: their own contracts state only that the program is kept and the session only grows. What each line kind does, at top level and in a loop body, is stated by Engine.Return, Engine.Declaration, Engine.DeclaredEntry, Engine.DuplicateDeclaration, Engine.CallEntersBody, Engine.Conditional, Engine.AssignmentStep, Engine.LoopEntry, Engine.LoopExit, Engine.LoopRestart, Engine.EndifStalls and Engine.BodyCommand.
- Text.ToLower: only the ASCII letters are lowered; culture-specific case mapping of other characters is left out.
- Engine.Start: a program holds fewer than `int.MaxValue` characters, which .NET's string length limit guarantees anyway. Its lines are capped at `int.MaxValue`, the bound on a .NET array.
- Painter exceptions other than the `ArgumentException` from `SetFill`/`SetColor` and the `IndexOutOfRangeException` from `ExecuteCommand`/`DrawShape` are left out, because the interpreter catches nothing else from the painter.
- The unit tests in SPL-TEsting/CommandTest.cs are not modelled: they exercise the interpreter and are not part of it.

=== FILE: circle.dfy ===
/** The circle shape: how it takes its parameters and what it draws.  The
    rendering itself is the graphics library's business; only the bounding
    box and the choice between brush and pen are modelled.  The base class
    `Shape` is not part of this model: its `set(x, y)` is taken to store the
    centre. */
module Shapes {
  import opened Wrappers
  import opened Ints

  datatype Circle = Circle(x: int32, y: int32, radius: int32)

  /** `Circle.set(params int[] list)`: the centre from `list[0]` and
      `list[1]`, the radius from `list[2]`. */
  function SetCircle(list: seq<int32>): (r: Result<Circle>)
    ensures r.Ok? <==> |list| >= 3
    ensures r.Err? ==> r.fault == IndexOutOfRange
  {
    if |list| < 3 then Err(IndexOutOfRange)
    else Ok(Circle(list[0], list[1], list[2]))
  }

  /** Reading the parameters: the first three elements, nothing else. */
  lemma SetCircleReads(list: seq<int32>, extra: seq<int32>)
    requires |list| >= 3
    ensures SetCircle(list + extra) == SetCircle(list)
    ensures SetCircle(list).value == Circle(list[0], list[1], list[2])
  {
  }

  /** `(x, y, width, height)` as passed to `FillEllipse`/`DrawEllipse`. */
  datatype Box = Box(left: int32, top: int32, width: int32, height: int32)

  /** One ellipse, filled with the brush or outlined with the pen. */
  datatype Ellipse = Filled(box: Box) | Outlined(box: Box)

  /** `Circle.draw`: the box is computed with C#'s unchecked `int` arithmetic. */
  function DrawCircle(c: Circle, fill: bool): (e: Ellipse)
    ensures e.Filled? <==> fill
  {
    var box := Box(Wrap(c.x - c.radius), Wrap(c.y - c.radius), Wrap(c.radius * 2), Wrap(c.radius * 2));
    if fill then Filled(box) else Outlined(box)
  }

  /** Without overflow, the drawn ellipse is inscribed in the square of side
      twice the radius centred on the circle's centre, in both fill modes. */
  lemma DrawnBox(c: Circle, fill: bool)
    requires MinInt32 <= c.x - c.radius && MinInt32 <= c.y - c.radius
    requires c.x - c.radius <= MaxInt32 && c.y - c.radius <= MaxInt32
    requires MinInt32 <= 2 * c.radius <= MaxInt32
    ensures DrawCircle(c, fill).box.left + c.radius == c.x
    ensures DrawCircle(c, fill).box.top + c.radius == c.y
    ensures DrawCircle(c, fill).box.width == DrawCircle(c, fill).box.height == 2 * c.radius
  {
  }
}

=== FILE: commands.dfy ===
/** `parseCommand`: one drawing command such as `circle 10,20,30`.  The
    command word and a single comma-separated parameter field come from the
    lower-cased, trimmed line; recoverable problems are logged as error
    entries, an unparsable number too large for `int` escapes as a fault. */
module Commands {
  import opened Wrappers
  import opened Ints
  import opened Text
  import opened Numerals
  import opened Store
  import opened Effects
  import opened Shapes

  const NotRecognized := "Command not recognized"
  const WrongCount := "Incorrect number of parameters for this command"
  /** The message of the two `IndexOutOfRangeException` handlers, which carry
      their own full stop before the entry's closing `".\r\n"`. */
  const WrongCountDot := WrongCount + "."
  const InvalidParameters := "Parameters not valid for this command"

  /** `input.ToLower().Trim().Split(' ')`. */
  function Words(input: string): (w: seq<string>)
    ensures |w| > 0
  {
    Split(Trim(ToLower(input)), ' ')
  }

  function CommandWord(input: string): string {
    Words(input)[0]
  }

  /** The second word split on commas; words after the second are ignored. */
  function Parameters(input: string): seq<string> {
    var w := Words(input);
    if |w| > 1 then Split(w[1], ',') else []
  }

  predicate IsMotion(command: string) {
    command == "drawto" || command == "moveto" || command == "clear" || command == "reset"
  }

  predicate IsShape(command: string) {
    command == "circle" || command == "square" || command == "rect" || command == "triangle"
  }

  predicate IsKnown(command: string) {
    command == "tocenter" || command == "fill" || command == "pen" || IsMotion(command) || IsShape(command)
  }

  /** A parameter's value: a variable's text when the parameter names one
      (even a variable named like a numeral), else the parameter itself,
      through `Int32.Parse`; the fault is that of `Int32.Parse`. */
  function Resolve(vars: Vars, p: string): (r: Result<int32>)
    ensures r.Ok? ==> ParseInteger(if p in vars then vars[p] else p) == Some(r.value as int)
    ensures var t := if p in vars then vars[p] else p;
      r.Ok? <==> ParseInteger(t).Some? && MinInt32 <= ParseInteger(t).value <= MaxInt32
    ensures var t := if p in vars then vars[p] else p;
      r == Err(BadFormat) <==> ParseInteger(t).None?
    ensures p !in vars && ParseInteger(p).None? ==> r == Err(BadFormat)
    ensures r.Err? ==> r.fault == BadFormat || r.fault == Overflow
  {
    Int32Parse(if p in vars then vars[p] else p)
  }

  /** How far the parsing loop got: the values parsed, and the exception that
      stopped it, if any. */
  datatype Resolution = Resolution(values: seq<int32>, stop: Option<Fault>)

  /** The index of the first parameter at or after `from` that does not
      parse, or `|params|` when all do. */
  function FirstFailure(vars: Vars, params: seq<string>, from: nat): (k: nat)
    requires from <= |params|
    ensures from <= k <= |params|
    ensures forall i | from <= i < k :: Resolve(vars, params[i]).Ok?
    ensures k < |params| ==> Resolve(vars, params[k]).Err?
    decreases |params| - from
  {
    if from == |params| || Resolve(vars, params[from]).Err? then from
    else FirstFailure(vars, params, from + 1)
  }

  /** The loop `parametersInt[i] = Int32.Parse(...)` over all parameters:
      the values of the parameters before the first that does not parse, in
      order, and the exception that one raises. */
  function ResolveAll(vars: Vars, params: seq<string>): (r: Resolution)
    ensures |r.values| <= |params|
    ensures r.stop.None? <==> |r.values| == |params|
    ensures forall i | 0 <= i < |r.values| :: Resolve(vars, params[i]) == Ok(r.values[i])
    ensures r.stop.Some? ==> Resolve(vars, params[|r.values|]) == Err(r.stop.value)
    ensures r.stop.Some? ==> r.stop.value == BadFormat || r.stop.value == Overflow
  {
    var k := FirstFailure(vars, params, 0);
    var values := seq(k, i requires 0 <= i < k => Resolve(vars, params[i]).value);
    Resolution(values, if k < |params| then Some(Resolve(vars, params[k]).fault) else None)
  }

  /** The `int[]` handed on after a `FormatException`: the values parsed
      before it, then the array's default zeros. */
  function Padded(values: seq<int32>, n: nat): (a: seq<int32>)
    requires |values| <= n
    ensures |a| == n && a[..|values|] == values
    ensures forall i | |values| <= i < n :: a[i] == 0
  {
    values + seq(n - |values|, _ => 0)
  }

  function Log(s: Session, message: string, line: int): Session {
    s.(errors := s.errors + [ErrorEntry(message, line)])
  }

  function Emit(s: Session, e: Event): Session {
    s.(trace := s.trace + [e])
  }

  /** What a command may do to the session: log at most two entries, all at
      `line`, make at most one painter call, and leave the store alone. */
  predicate Appends(s: Session, s': Session, line: int) {
    s'.vars == s.vars
    && |s.errors| <= |s'.errors| <= |s.errors| + 2 && s'.errors[..|s.errors|] == s.errors
    && |s.trace| <= |s'.trace| <= |s.trace| + 1 && s'.trace[..|s.trace|] == s.trace
    && forall i | |s.errors| <= i < |s'.errors| :: s'.errors[i].line == line
  }

  /** `fill` and `pen`: exactly one parameter, which the painter may reject
      with a message of its own. */
  function SetOption(painter: Painter, s: Session, command: string, params: seq<string>, line: int)
    : (s': Session)
    ensures Appends(s, s', line) && |s'.errors| + |s'.trace| == |s.errors| + |s.trace| + 1
  {
    var rejects := if command == "fill" then painter.fillRejects else painter.colourRejects;
    if |params| == 1 then
      match rejects(params[0])
      case Some(m) => Log(s, m, line)
      case None => Emit(s, if command == "fill" then FillSet(params[0]) else ColourSet(params[0]))
    else Log(s, WrongCount, line)
  }

  /** `drawto`, `moveto`, `clear`, `reset`: an unparsable parameter is logged
      and the command still runs, with zeros from that parameter on. */
  function Motion(painter: Painter, s: Session, command: string, params: seq<string>, line: int)
    : (r: Outcome<Session>)
    ensures Appends(s, r.state, line)
    ensures r.Abrupt? ==> r.fault == Overflow && r.state == s
  {
    var res := ResolveAll(s.vars, params);
    if res.stop.Some? && res.stop.value != BadFormat then Abrupt(res.stop.value, s)
    else
      var s1 := if res.stop.Some? then Log(s, InvalidParameters, line) else s;
      var args := Padded(res.values, |params|);
      if painter.executes(command, args) then Normal(Emit(s1, Executed(command, args)))
      else Normal(Log(s1, WrongCountDot, line))
  }

  /** `circle`, `square`, `rect`, `triangle`: an unparsable parameter is
      logged and nothing is drawn. */
  function Shape(painter: Painter, s: Session, command: string, params: seq<string>, line: int)
    : (r: Outcome<Session>)
    ensures Appends(s, r.state, line) && |r.state.errors| <= |s.errors| + 1
    ensures r.Abrupt? ==> r.fault == Overflow && r.state == s
  {
    var res := ResolveAll(s.vars, params);
    if res.stop.Some? && res.stop.value != BadFormat then Abrupt(res.stop.value, s)
    else if res.stop.Some? then Normal(Log(s, InvalidParameters, line))
    else if painter.draws(command, res.values) then Normal(Emit(s, ShapeDrawn(command, res.values)))
    else Normal(Log(s, WrongCountDot, line))
  }

  /** `parseCommand(input, lineNum)`. */
  function ParseCommand(painter: Painter, s: Session, input: string, line: int): (r: Outcome<Session>)
    ensures Appends(s, r.state, line)
    ensures r.Abrupt? ==> r.fault == Overflow && r.state == s
    ensures !IsKnown(CommandWord(input)) ==> r == Normal(Log(s, NotRecognized, line))
  {
    var command := CommandWord(input);
    var params := Parameters(input);
    if command == "tocenter" then Normal(Emit(s, Centred))
    else if command == "fill" || command == "pen" then Normal(SetOption(painter, s, command, params, line))
    else if IsMotion(command) then Motion(painter, s, command, params, line)
    else if IsShape(command) then Shape(painter, s, command, params, line)
    else Normal(Log(s, NotRecognized, line))
  }

  // ------------------------------------------------------------ properties

  /** The command words of the four kinds are distinct. */
  lemma KindsDistinct(c: string)
    ensures IsMotion(c) ==> c != "tocenter" && c != "fill" && c != "pen"
    ensures IsShape(c) ==> c != "tocenter" && c != "fill" && c != "pen" && !IsMotion(c)
  {
    if c == "triangle" {
      assert c[1] != "tocenter"[1];
    } else if c == "rect" {
      assert c[0] != "fill"[0];
    }
  }

  /** A motion command goes to the motion branch. */
  lemma MotionDispatch(painter: Painter, s: Session, input: string, line: int)
    requires IsMotion(CommandWord(input))
    ensures ParseCommand(painter, s, input, line)
         == Motion(painter, s, CommandWord(input), Parameters(input), line)
  {
    KindsDistinct(CommandWord(input));
  }

  /** A shape command goes to the shape branch. */
  lemma ShapeDispatch(painter: Painter, s: Session, input: string, line: int)
    requires IsShape(CommandWord(input))
    ensures ParseCommand(painter, s, input, line)
         == Shape(painter, s, CommandWord(input), Parameters(input), line)
  {
    KindsDistinct(CommandWord(input));
  }

  /** Commands are case-insensitive: the line is lowered before it is read. */
  lemma CaseInsensitive(painter: Painter, s: Session, input: string, line: int)
    ensures ParseCommand(painter, s, ToLower(input), line) == ParseCommand(painter, s, input, line)
  {
    ToLowerIdempotent(input);
  }

  /** `fill` and `pen` take exactly one parameter; any other count is logged
      and the painter is not called.  With one parameter the painter's
      verdict decides: the setting is made, or its message is logged. */
  lemma OptionArity(painter: Painter, s: Session, input: string, line: int)
    requires CommandWord(input) == "fill" || CommandWord(input) == "pen"
    ensures |Parameters(input)| != 1 ==> ParseCommand(painter, s, input, line) == Normal(Log(s, WrongCount, line))
    ensures |Parameters(input)| == 1 ==>
      var p := Parameters(input)[0];
      var fill := CommandWord(input) == "fill";
      var verdict := if fill then painter.fillRejects(p) else painter.colourRejects(p);
      ParseCommand(painter, s, input, line) ==
        if verdict.Some? then Normal(Log(s, verdict.value, line))
        else Normal(Emit(s, if fill then FillSet(p) else ColourSet(p)))
  {
  }

  /** The parameter at `k` is the first one that is not a numeral nor names
      a variable holding one. */
  predicate FirstUnparsable(vars: Vars, params: seq<string>, k: nat) {
    k < |params| && Resolve(vars, params[k]) == Err(BadFormat)
    && forall i | 0 <= i < k :: Resolve(vars, params[i]).Ok?
  }

  lemma FirstUnparsableStops(vars: Vars, params: seq<string>, k: nat)
    requires FirstUnparsable(vars, params, k)
    ensures ResolveAll(vars, params).stop == Some(BadFormat)
    ensures |ResolveAll(vars, params).values| == k
  {
  }

  /** A shape with an unparsable parameter is reported and not drawn. */
  lemma ShapeRejectsUnparsable(painter: Painter, s: Session, input: string, line: int, k: nat)
    requires IsShape(CommandWord(input)) && FirstUnparsable(s.vars, Parameters(input), k)
    ensures ParseCommand(painter, s, input, line) == Normal(Log(s, InvalidParameters, line))
  {
    ShapeDispatch(painter, s, input, line);
    FirstUnparsableStops(s.vars, Parameters(input), k);
  }

  /** A motion command with an unparsable parameter is reported and still
      executed, with the values before it and zeros from it on. */
  lemma MotionPadsUnparsable(painter: Painter, s: Session, input: string, line: int, k: nat)
    requires IsMotion(CommandWord(input)) && FirstUnparsable(s.vars, Parameters(input), k)
    ensures var params := Parameters(input);
      var args := seq(|params|, i requires 0 <= i < |params| =>
                        if i < k then Resolve(s.vars, params[i]).value else 0);
      var s1 := Log(s, InvalidParameters, line);
      ParseCommand(painter, s, input, line) ==
        if painter.executes(CommandWord(input), args)
        then Normal(Emit(s1, Executed(CommandWord(input), args)))
        else Normal(Log(s1, WrongCountDot, line))
  {
    var params := Parameters(input);
    MotionDispatch(painter, s, input, line);
    FirstUnparsableStops(s.vars, params, k);
    var res := ResolveAll(s.vars, params);
    var args := seq(|params|, i requires 0 <= i < |params| =>
                      if i < k then Resolve(s.vars, params[i]).value else 0);
    assert Padded(res.values, |params|) == args;
  }

  /** A motion command whose parameters all resolve (a variable's stored
      value, or else the literal) calls the painter with exactly those values
      and logs nothing unless the painter rejects the count. */
  lemma MotionResolves(painter: Painter, s: Session, input: string, line: int)
    requires IsMotion(CommandWord(input))
    requires forall i | 0 <= i < |Parameters(input)| :: Resolve(s.vars, Parameters(input)[i]).Ok?
    ensures var params := Parameters(input);
      var args := seq(|params|, i requires 0 <= i < |params| => Resolve(s.vars, params[i]).value);
      ParseCommand(painter, s, input, line) ==
        if painter.executes(CommandWord(input), args)
        then Normal(Emit(s, Executed(CommandWord(input), args)))
        else Normal(Log(s, WrongCountDot, line))
  {
    var params := Parameters(input);
    MotionDispatch(painter, s, input, line);
    var res := ResolveAll(s.vars, params);
    var args := seq(|params|, i requires 0 <= i < |params| => Resolve(s.vars, params[i]).value);
    assert res.stop.None?;
    assert res.values == args;
    assert Padded(res.values, |params|) == args;
  }

  /** With a painter that draws a circle exactly when `Circle.set` accepts
      its parameters, `circle` with numeric parameters draws exactly when it
      has at least three of them (centre and radius), and otherwise reports
      the wrong count. */
  lemma CircleArity(painter: Painter, s: Session, input: string, line: int)
    requires forall a :: painter.draws("circle", a) == SetCircle(a).Ok?
    requires CommandWord(input) == "circle"
    requires forall i | 0 <= i < |Parameters(input)| :: Resolve(s.vars, Parameters(input)[i]).Ok?
    ensures var values := ResolveAll(s.vars, Parameters(input)).values;
      ParseCommand(painter, s, input, line) ==
        if |Parameters(input)| >= 3 then Normal(Emit(s, ShapeDrawn("circle", values)))
        else Normal(Log(s, WrongCountDot, line))
  {
    ShapeDispatch(painter, s, input, line);
  }

  /** A value an assignment stored is read back by a command parameter that
      names the variable. */
  lemma AssignedParameter(vars: Vars, name: string, v: int32)
    ensures Resolve(vars[name := IntToString(v)], name) == Ok(v)
  {
    Int32ParseRoundTrip(v);
  }
}

=== FILE: effects.dfy ===
/** What the interpreter does to the outside world.  The painter is not part
    of this model: its calls become events in a trace, and whether a call
    throws is an answer the painter gives, passed in as a parameter. */
module Effects {
  import opened Wrappers
  import opened Ints
  import opened Text
  import opened Numerals
  import opened Store

  /** A painter call that returned normally. */
  datatype Event =
    | Centred                                       // Painter.Center()
    | FillSet(state: string)                        // Painter.SetFill(state)
    | ColourSet(colour: string)                     // Painter.SetColor(colour)
    | Executed(command: string, args: seq<int32>)   // Painter.ExecuteCommand(command, args)
    | ShapeDrawn(kind: string, args: seq<int32>)    // Painter.DrawShape(kind, args)
    | ErrorsWritten(text: string)                   // Painter.WriteError(text)

  /** The painter's answers.  `fillRejects(s) == Some(m)` means `SetFill(s)`
      throws an `ArgumentException` whose message is `m`, and likewise for
      `SetColor`; `executes` and `draws` are false when `ExecuteCommand` or
      `DrawShape` throws an `IndexOutOfRangeException`. */
  datatype Painter = Painter(
    fillRejects: string -> Option<string>,
    colourRejects: string -> Option<string>,
    executes: (string, seq<int32>) -> bool,
    draws: (string, seq<int32>) -> bool)

  /** One record of the `error` text: its message and the line number it
      was reported with (0 for none). */
  datatype ErrorEntry = ErrorEntry(message: string, line: int)

  /** `"[" + time + "] " + message`, then `" at line N"` when the line is not 0,
      then `".\r\n"`. */
  function FormatEntry(e: ErrorEntry, stamp: string): (text: string)
    ensures |text| >= |stamp| + |e.message| + 6
    ensures text[..|stamp| + 3] == "[" + stamp + "] "
    ensures text[|stamp| + 3..|stamp| + 3 + |e.message|] == e.message
    ensures text[|text| - 3..] == ".\r\n"
    ensures e.line == 0 <==> |text| == |stamp| + |e.message| + 6
  {
    "[" + stamp + "] " + e.message
    + (if e.line != 0 then " at line " + IntToString(e.line) else "")
    + ".\r\n"
  }

  /** A line number adds exactly ` at line N` after the message: the entry
      reads as the unnumbered entry of the message with that suffix. */
  lemma LineSuffix(message: string, line: int, stamp: string)
    requires line != 0
    ensures FormatEntry(ErrorEntry(message, line), stamp)
         == FormatEntry(ErrorEntry(message + " at line " + IntToString(line), 0), stamp)
  {
  }

  /** The whole `error` string: the entries' texts in the order they were logged. */
  function FormatLog(errors: seq<ErrorEntry>, stamp: string): string {
    Concat(seq(|errors|, i requires 0 <= i < |errors| => FormatEntry(errors[i], stamp)))
  }

  /** The text is empty exactly when no entry was logged, so `error != ""`
      tests for a logged entry. */
  lemma FormatLogEmpty(errors: seq<ErrorEntry>, stamp: string)
    ensures FormatLog(errors, stamp) == "" <==> |errors| == 0
  {
    var texts := seq(|errors|, i requires 0 <= i < |errors| => FormatEntry(errors[i], stamp));
    if |errors| > 0 {
      assert FormatLog(errors, stamp) == texts[0] + Concat(texts[1..]);
      assert FormatLog(errors, stamp)[0] == '[';
    }
  }

  /** Appending entries appends their text: the log is an append-only string. */
  lemma FormatLogAppend(a: seq<ErrorEntry>, b: seq<ErrorEntry>, stamp: string)
    ensures FormatLog(a + b, stamp) == FormatLog(a, stamp) + FormatLog(b, stamp)
  {
    var ta := seq(|a|, i requires 0 <= i < |a| => FormatEntry(a[i], stamp));
    var tb := seq(|b|, i requires 0 <= i < |b| => FormatEntry(b[i], stamp));
    var tab := seq(|a + b|, i requires 0 <= i < |a + b| => FormatEntry((a + b)[i], stamp));
    assert tab == ta + tb;
    ConcatAppend(ta, tb);
  }

  /** The state a `Parser` object keeps between calls. */
  datatype Session = Session(vars: Vars, errors: seq<ErrorEntry>, trace: seq<Event>)

  /** `s'` was reached from `s` by logging more entries and making more calls. */
  predicate Extends(s: Session, s': Session) {
    |s.errors| <= |s'.errors| && s'.errors[..|s.errors|] == s.errors
    && |s.trace| <= |s'.trace| && s'.trace[..|s.trace|] == s.trace
  }

  lemma ExtendsTransitive(s1: Session, s2: Session, s3: Session)
    requires Extends(s1, s2) && Extends(s2, s3)
    ensures Extends(s1, s3)
  {
    assert s3.errors[..|s1.errors|] == s3.errors[..|s2.errors|][..|s1.errors|];
    assert s3.trace[..|s1.trace|] == s3.trace[..|s2.trace|][..|s1.trace|];
  }
}

=== FILE: engine.dfy ===
/** The program runner (`parseEditor`) and the error display (`displayError`).

    A run is a sequence of steps of a machine holding the program lines, the
    line pointer, the `while` mode, the call/return pair `cursor` and
    `currentFunction`, and the session state.  Each step processes one line.
    A `while` is not a nested loop here: the machine switches to `Looping`
    mode, in which it re-tests the header before every body line.  Loops and
    calls can go on forever, so a run is bounded by fuel. */
module Engine {
  import opened Wrappers
  import opened Ints
  import opened Text
  import opened Numerals
  import opened Tokens
  import opened Store
  import opened Effects
  import opened Evaluator
  import opened Commands

  /** The two collaborators the runner cannot see into. */
  datatype Env = Env(lex: Lexer, painter: Painter)

  /** Outside a loop the runner walks `lineNum` (`pc`).  Inside a `while` whose
      header is at `pc` it walks `whileNum` (`body`). */
  datatype Mode = Scanning | Looping(body: int32)

  /** The lines of a program.  A .NET array has at most `Int32.MaxValue`
      elements, so every line index fits in an `int`. */
  type Program = lines: seq<string> | |lines| <= MaxInt32

  datatype Machine = Machine(
    lines: Program,
    pc: int32,
    mode: Mode,
    cursor: int32,        // the line of the last call
    current: string,      // the name of the last method called, "" before any
    session: Session)

  /** One step: go on, fall off the end of the program, or stop on an
      exception, with the session as it was when the exception was thrown. */
  datatype Progress = Continue(next: Machine) | Halted(final: Session) | Crashed(fault: Fault, partial: Session)

  /** The line the machine is about to process. */
  function Here(m: Machine): int32 {
    if m.mode.Looping? then m.mode.body else m.pc
  }

  /** Move the pointer of the current mode. */
  function Goto(m: Machine, k: int32): Machine {
    if m.mode.Looping? then m.(mode := Looping(k)) else m.(pc := k)
  }

  function SessionOf(st: Progress): Session {
    match st
    case Continue(n) => n.session
    case Halted(s) => s
    case Crashed(_, s) => s
  }

  /** A step keeps the program and only appends to the error log and the trace. */
  predicate Keeps(m: Machine, st: Progress) {
    Extends(m.session, SessionOf(st)) && (st.Continue? ==> st.next.lines == m.lines)
  }

  /** The test at Parser.cs:355 that sends a line to the structural branch
      rather than to `parseCommand`. */
  predicate IsStructural(line: string) {
    Contains(line, "=") || Contains(line, "if") || Contains(line, "endif")
    || Contains(line, "while") || Contains(line, "method") || HasParenGroup(line)
  }

  // ------------------------------------------------------------ line handlers

  /** `endmethod`: remove the formals of the method called last.  Its entry is
      read again, so a missing or scalar entry throws. */
  function Leave(vars: Vars, current: string): (r: Result<Vars>)
    ensures current == "" ==> r == Ok(vars)
    ensures r.Ok? ==> r.value.Keys <= vars.Keys && forall k | k in r.value :: r.value[k] == vars[k]
    ensures current != "" && r.Ok? ==> LookupMethod(vars, current).Ok?
  {
    if current == "" then Ok(vars)
    else
      var info :- LookupMethod(vars, current);
      Ok(Unbind(vars, info.formals))
  }

  /** Return: the pointer goes to the line after the last call. */
  function EndMethod(m: Machine): (st: Progress)
    ensures Keeps(m, st) && !st.Halted?
  {
    match Leave(m.session.vars, m.current)
    case Err(f) => Crashed(f, m.session)
    case Ok(v) => Continue(Goto(m, Inc(m.cursor)).(session := m.session.(vars := v)))
  }

  /** A header `method name a b ...`: the descriptor is stored under the name
      and the pointer moves to the first line at or after the header holding
      `endmethod`, so the body is not run. */
  function Header(env: Env, m: Machine): (st: Progress)
    requires m.mode.Scanning? && 0 <= m.pc as int < |m.lines|
    ensures Keeps(m, st) && !st.Halted?
  {
    var tokens := env.lex(m.lines[m.pc]);
    if |tokens| < 2 then Crashed(BadRange, m.session)
    else
      var name := tokens[1].text;
      var end := FirstContaining(m.lines, m.pc as nat, "endmethod");
      if name in m.session.vars then Crashed(DuplicateKey(name), m.session)
      else Continue(m.(pc := Inc(end as int32), session := m.session.(vars := Declare(m.session.vars, tokens, m.pc as int, end))))
  }

  /** The store after declaring the header `tokens` found at line `at`, whose
      first `endmethod` is at line `end`: the descriptor `start,end,formals`
      under the header's name. */
  function Declare(vars: Vars, tokens: seq<Token>, at: int, end: int): Vars
    requires |tokens| >= 2
  {
    vars[tokens[1].text := Descriptor(at, end - 1, FormalText(tokens[2..]))]
  }

  /** The actual parameters of a call, left to right: a number's text, an
      identifier's stored text; operators are skipped. */
  function Actuals(vars: Vars, toks: seq<Token>): (r: Result<seq<string>>)
    ensures r.Ok? <==> forall i | 0 <= i < |toks| && toks[i].Identifier? :: toks[i].text in vars
    ensures r.Err? ==> r.fault.KeyNotFound? && r.fault.key !in vars
    ensures r.Ok? ==> |r.value| <= |toks|
    decreases |toks|
  {
    if |toks| == 0 then Ok([])
    else match toks[0]
      case Operator(_) => Actuals(vars, toks[1..])
      case Number(t) =>
        var rest :- Actuals(vars, toks[1..]);
        Ok([t] + rest)
      case Identifier(x) =>
        if x !in vars then Err(KeyNotFound(x))
        else
          var rest :- Actuals(vars, toks[1..]);
          Ok([vars[x]] + rest)
  }

  /** What a call line asks for, read before anything is changed. */
  datatype CallPlan = CallPlan(name: string, formals: seq<string>, actuals: seq<string>, startText: string)

  /** The first token names the method; its entry gives the start line and the
      formals; the remaining tokens give the actuals. */
  function PlanCall(lex: Lexer, vars: Vars, line: string): (r: Result<CallPlan>)
    ensures |lex(line)| == 0 ==> r == Err(BadRange)
    ensures r.Ok? ==> |lex(line)| > 0 && r.value.name == lex(line)[0].text
    ensures r.Ok? ==> LookupMethod(vars, r.value.name) == Ok(MethodInfo(r.value.startText, r.value.formals))
    ensures r.Ok? ==> Actuals(vars, lex(line)[1..]) == Ok(r.value.actuals)
  {
    var tokens := lex(line);
    if |tokens| == 0 then Err(BadRange)
    else
      var info :- LookupMethod(vars, tokens[0].text);
      var actuals :- Actuals(vars, tokens[1..]);
      Ok(CallPlan(tokens[0].text, info.formals, actuals, info.startText))
  }

  /** The formals are bound only when there are as many actuals as formals. */
  function Enter(vars: Vars, plan: CallPlan): Vars {
    if |plan.formals| == |plan.actuals| then Bind(vars, plan.formals, plan.actuals) else vars
  }

  /** A call: remember where it came from, bind, and jump past the header. */
  function Call(env: Env, m: Machine): (st: Progress)
    requires 0 <= Here(m) as int < |m.lines|
    ensures Keeps(m, st) && !st.Halted?
  {
    match PlanCall(env.lex, m.session.vars, m.lines[Here(m)])
    case Err(f) => Crashed(f, m.session)
    case Ok(plan) =>
      var s := m.session.(vars := Enter(m.session.vars, plan));
      match Int32Parse(plan.startText)
      case Err(f) => Crashed(f, s)
      case Ok(start) => Continue(Goto(m, Inc(start)).(cursor := Here(m), current := plan.name, session := s))
  }

  /** Where a false `if` at `at` leaves the pointer before it advances: on the
      first line at or after it holding `endif`, or on the next line. */
  function SkipTarget(lines: seq<string>, at: nat): (k: nat)
    requires at < |lines|
    ensures at <= k <= |lines|
    ensures (k < |lines| && Contains(lines[k], "endif") && forall i | at <= i < k :: !Contains(lines[i], "endif"))
         || (k == at + 1 && forall i | at <= i < |lines| :: !Contains(lines[i], "endif"))
  {
    var e := FirstContaining(lines, at, "endif");
    if e < |lines| then e else at + 1
  }

  /** An `if` line: fall through when true, skip when false. */
  function IfLine(env: Env, m: Machine): (st: Progress)
    requires 0 <= Here(m) as int < |m.lines|
    ensures Keeps(m, st) && !st.Halted?
    ensures st.Continue? ==> st.next.session == m.session
  {
    match ParseUsingIf(env.lex, m.session.vars, m.lines[Here(m)])
    case Err(f) => Crashed(f, m.session)
    case Ok(true) => Continue(Goto(m, Inc(Here(m))))
    case Ok(false) => Continue(Goto(m, Inc(SkipTarget(m.lines, Here(m) as nat) as int32)))
  }

  /** An assignment line. */
  function AssignLine(env: Env, m: Machine): (st: Progress)
    requires 0 <= Here(m) as int < |m.lines|
    ensures Keeps(m, st) && !st.Halted?
  {
    match ParseUsingLexer(env.lex, m.session.vars, m.lines[Here(m)])
    case Normal(v) => Continue(Goto(m, Inc(Here(m))).(session := m.session.(vars := v)))
    case Abrupt(f, v) => Crashed(f, m.session.(vars := v))
  }

  /** A command line, reported with line number `at`. */
  function CommandLine(env: Env, m: Machine, at: int): (st: Progress)
    requires 0 <= Here(m) as int < |m.lines|
    ensures Keeps(m, st) && !st.Halted?
    ensures st.Continue? ==> Appends(m.session, st.next.session, at)
  {
    match ParseCommand(env.painter, m.session, m.lines[Here(m)], at)
    case Normal(s) => Continue(Goto(m, Inc(Here(m))).(session := s))
    case Abrupt(f, s) => Crashed(f, s)
  }

  // -------------------------------------------------------------------- steps

  /** One turn of the `for` loop over `lineNum` (Parser.cs:349-561). */
  function ScanStep(env: Env, m: Machine): (st: Progress)
    requires m.mode.Scanning?
    ensures Keeps(m, st)
    ensures st.Halted? <==> m.pc as int >= |m.lines|
    ensures st.Halted? ==> st.final == m.session
  {
    if m.pc as int >= |m.lines| then Halted(m.session)
    else if m.pc < 0 then Crashed(IndexOutOfRange, m.session)
    else
      var line := m.lines[m.pc];
      if IsBlank(line) then Continue(m.(pc := Inc(m.pc)))
      else if !IsStructural(line) then CommandLine(env, m, m.pc as int + 1)
      else if Contains(line, "endmethod") then EndMethod(m)
      else if Contains(line, "method") then Header(env, m)
      else if HasParenGroup(line) then Call(env, m)
      else if Contains(line, "while") && !Contains(line, "endwhile") then Continue(m.(mode := Looping(Inc(m.pc))))
      else if Contains(line, "endif") then Continue(m.(pc := Inc(m.pc)))
      else if Contains(line, "if") then IfLine(env, m)
      else if Contains(line, "=") then AssignLine(env, m)
      else Continue(m.(pc := Inc(m.pc)))
  }

  /** One turn of the inner `while` loop (Parser.cs:437-524): the header is
      evaluated again, then one body line is processed. */
  function LoopStep(env: Env, m: Machine): (st: Progress)
    requires m.mode.Looping?
    ensures Keeps(m, st) && !st.Halted?
  {
    if m.pc < 0 || m.pc as int >= |m.lines| then Crashed(IndexOutOfRange, m.session)
    else match ParseUsingIf(env.lex, m.session.vars, m.lines[m.pc])
      case Err(f) => Crashed(f, m.session)
      case Ok(false) => Continue(m.(mode := Scanning, pc := Inc(m.mode.body)))
      case Ok(true) => BodyStep(env, m)
  }

  /** The body line under a true header. */
  function BodyStep(env: Env, m: Machine): (st: Progress)
    requires m.mode.Looping?
    ensures Keeps(m, st) && !st.Halted?
  {
    var b := m.mode.body;
    if b < 0 || b as int >= |m.lines| then Crashed(IndexOutOfRange, m.session)
    else
      var line := m.lines[b];
      if Contains(line, "endwhile") then Continue(m.(mode := Looping(Inc(m.pc))))
      else if Contains(line, "endmethod") then EndMethod(m)
      else if HasParenGroup(line) && !Contains(line, "method") then Call(env, m)
      else if Contains(line, "endif") then Continue(m)
      else if Contains(line, "if") then IfLine(env, m)
      else if Contains(line, "=") then AssignLine(env, m)
      else CommandLine(env, m, b as int)
  }

  function Step(env: Env, m: Machine): (st: Progress)
    ensures Keeps(m, st)
    ensures st.Halted? ==> m.mode.Scanning? && m.pc as int >= |m.lines| && st.final == m.session
  {
    if m.mode.Scanning? then ScanStep(env, m) else LoopStep(env, m)
  }

  // --------------------------------------------------------------------- runs

  datatype Ending = Finished(final: Session) | Failed(fault: Fault, partial: Session) | OutOfFuel(last: Machine)

  function EndingSession(e: Ending): Session {
    match e
    case Finished(s) => s
    case Failed(_, s) => s
    case OutOfFuel(m) => m.session
  }

  /** At most `fuel` steps of `step` from `m`. */
  function Iterate(step: Machine -> Progress, m: Machine, fuel: nat): Ending
    decreases fuel
  {
    if fuel == 0 then OutOfFuel(m)
    else match step(m)
      case Continue(n) => Iterate(step, n, fuel - 1)
      case Halted(s) => Finished(s)
      case Crashed(f, s) => Failed(f, s)
  }

  /** A run: at most `fuel` turns of the interpreter's loops. However far it
      goes, it only appends to the error log and the painter trace. */
  function Run(env: Env, m: Machine, fuel: nat): (e: Ending)
    ensures Extends(m.session, EndingSession(e))
  {
    StepsAppendOnly(env);
    IterateAppendsOnly(n => Step(env, n), m, fuel);
    Iterate(n => Step(env, n), m, fuel)
  }

  /** A fresh run over the text of the editor. */
  function Start(input: string, s: Session): (m: Machine)
    requires |input| < MaxInt32
    ensures |m.lines| > 0 && Join(m.lines, '\n') == input
  {
    Machine(Split(input, '\n'), 0, Scanning, 0, "", s)
  }

  /** `parseEditor(input)` within `fuel` steps. */
  function ParseEditor(env: Env, s: Session, input: string, fuel: nat): (e: Ending)
    requires |input| < MaxInt32
    ensures Extends(s, EndingSession(e))
  {
    Run(env, Start(input, s), fuel)
  }

  /** `displayError`: hand the whole log to the painter once, then clear it.
      One `stamp` stands for every entry's time of day. */
  function DisplayError(s: Session, stamp: string): (s': Session)
    ensures s'.vars == s.vars && s'.errors == []
    ensures s' == s <==> |s.errors| == 0
    ensures |s.errors| > 0 ==> |s'.trace| == |s.trace| + 1 && s'.trace[..|s.trace|] == s.trace
  {
    var text := FormatLog(s.errors, stamp);
    FormatLogEmpty(s.errors, stamp);
    if text != "" then s.(errors := [], trace := s.trace + [ErrorsWritten(text)]) else s
  }

  // ------------------------------------------------------------------- lemmas

  lemma ParenNotBlank(line: string)
    requires HasParenGroup(line)
    ensures !IsBlank(line)
  {
    HasParenGroupMeaning(line);
    var i, j :| ParenGroupAt(line, i, j);
    assert !IsWhiteSpace(line[i]);
  }

  /** Iterating a step that only appends appends only. */
  lemma {:induction false} IterateAppendsOnly(step: Machine -> Progress, m: Machine, fuel: nat)
    requires forall x: Machine :: Extends(x.session, SessionOf(step(x)))
    ensures Extends(m.session, EndingSession(Iterate(step, m, fuel)))
    decreases fuel
  {
    if fuel > 0 {
      var st := step(m);
      assert Extends(m.session, SessionOf(st));
      if st.Continue? {
        IterateAppendsOnly(step, st.next, fuel - 1);
        ExtendsTransitive(m.session, st.next.session, EndingSession(Iterate(step, st.next, fuel - 1)));
      }
    }
  }

  /** Every step, in either mode, only appends. */
  lemma StepsAppendOnly(env: Env)
    ensures forall x: Machine :: Extends(x.session, SessionOf(Step(env, x)))
  {
    forall x: Machine ensures Extends(x.session, SessionOf(Step(env, x))) {
      assert Keeps(x, Step(env, x));
    }
  }

  /** Blank lines are skipped without a report. */
  lemma BlankLineSkipped(env: Env, m: Machine)
    requires m.mode.Scanning? && 0 <= m.pc as int < |m.lines| && IsBlank(m.lines[m.pc])
    ensures Step(env, m) == Continue(m.(pc := Inc(m.pc)))
  {
  }

  /** A top-level line that is not structural goes to `parseCommand` with its
      1-based line number: whatever it logs carries that number, the store is
      not touched, and an unknown command word logs exactly one entry. */
  lemma TopLevelCommand(env: Env, m: Machine)
    requires m.mode.Scanning? && 0 <= m.pc as int < |m.lines|
    requires !IsBlank(m.lines[m.pc]) && !IsStructural(m.lines[m.pc])
    ensures Step(env, m).Continue? ==>
      Step(env, m).next == m.(pc := Inc(m.pc), session := Step(env, m).next.session)
      && Appends(m.session, Step(env, m).next.session, m.pc as int + 1)
    ensures Step(env, m).Crashed? ==> Step(env, m) == Crashed(Overflow, m.session)
    ensures !IsKnown(CommandWord(m.lines[m.pc])) ==>
      Step(env, m) == Continue(m.(pc := Inc(m.pc), session := Log(m.session, NotRecognized, m.pc as int + 1)))
  {
  }

  /** A one-line program holding an unknown command reports it at line 1. */
  lemma OneLineProgram(env: Env, s: Session, input: string, fuel: nat)
    requires |input| < MaxInt32 && '\n' !in input && fuel >= 2
    requires !IsBlank(input) && !IsStructural(input) && !IsKnown(CommandWord(input))
    ensures ParseEditor(env, s, input, fuel) == Finished(Log(s, NotRecognized, 1))
  {
    SplitNone(input, '\n');
    var m := Start(input, s);
    TopLevelCommand(env, m);
    var n := m.(pc := 1, session := Log(s, NotRecognized, 1));
    assert Step(env, m) == Continue(n);
    assert Step(env, n) == Halted(n.session);
    assert Run(env, n, fuel - 1) == Finished(n.session);
  }

  /** An empty editor runs to completion and changes nothing. */
  lemma EmptyProgram(env: Env, s: Session, fuel: nat)
    requires fuel >= 2
    ensures ParseEditor(env, s, "", fuel) == Finished(s)
  {
    var m := Start("", s);
    assert |m.lines| == 1 && m.lines[0] == "";
    var n := m.(pc := 1);
    assert Step(env, m) == Continue(n);
    assert Run(env, n, fuel - 1) == Finished(s);
  }

  /** A header stores the descriptor of its method under its name and the run
      resumes after the first `endmethod` line at or after it, without
      running the body. */
  lemma Declaration(env: Env, m: Machine)
    requires m.mode.Scanning? && 0 <= m.pc as int < |m.lines|
    requires Contains(m.lines[m.pc], "method") && !Contains(m.lines[m.pc], "endmethod")
    requires |env.lex(m.lines[m.pc])| >= 2 && env.lex(m.lines[m.pc])[1].text !in m.session.vars
    ensures var end := FirstContaining(m.lines, m.pc as nat, "endmethod");
      Step(env, m) == Continue(m.(pc := Inc(end as int32),
                                  session := m.session.(vars := Declare(m.session.vars, env.lex(m.lines[m.pc]), m.pc as int, end))))
  {
    ContainsNotBlank(m.lines[m.pc], "method");
    assert Step(env, m) == Header(env, m);
  }

  /** The declared entry is `start,end,formals`: the header's line, the line
      before its `endmethod`, and its identifiers joined by `|` (nothing when
      it has none); no other entry changes. It reads back as the header's line
      and its identifiers, or as the one empty formal when it has none. */
  lemma DeclaredEntry(vars: Vars, tokens: seq<Token>, at: int, end: int)
    requires |tokens| >= 2
    requires var names := IdentifierNames(tokens[2..]);
      forall i | 0 <= i < |names| :: ',' !in names[i] && '|' !in names[i]
    ensures var names := IdentifierNames(tokens[2..]);
      var name := tokens[1].text;
      var d := Declare(vars, tokens, at, end);
      d - {name} == vars - {name}
      && name in d && d[name] == Descriptor(at, end - 1, if |names| == 0 then "" else Join(names, '|'))
      && LookupMethod(d, name) == Ok(MethodInfo(IntToString(at), if |names| == 0 then [""] else names))
  {
    var names := IdentifierNames(tokens[2..]);
    var name := tokens[1].text;
    FormalTextJoin(tokens[2..]);
    assert vars[name := Descriptor(at, end - 1, FormalText(tokens[2..]))] - {name} == vars - {name};
    if |names| == 0 {
      EmptyFormalsRoundTrip(vars, name, at, end - 1);
    } else {
      DescriptorRoundTrip(vars, name, at, end - 1, names);
    }
  }

  /** A name already in the store, scalar or method, cannot be declared. */
  lemma DuplicateDeclaration(env: Env, m: Machine)
    requires m.mode.Scanning? && 0 <= m.pc as int < |m.lines|
    requires Contains(m.lines[m.pc], "method") && !Contains(m.lines[m.pc], "endmethod")
    requires |env.lex(m.lines[m.pc])| >= 2 && env.lex(m.lines[m.pc])[1].text in m.session.vars
    ensures Step(env, m) == Crashed(DuplicateKey(env.lex(m.lines[m.pc])[1].text), m.session)
  {
    ContainsNotBlank(m.lines[m.pc], "method");
  }

  /** The machine is on a line it processes as a statement: a line of the
      program and, in loop mode, a body line other than `endwhile` under a
      true header. What such a line does is the same at top level and in a
      body, except where noted. */
  predicate AtLine(env: Env, m: Machine) {
    0 <= Here(m) as int < |m.lines|
    && (m.mode.Looping? ==> Iterating(env, m) && !Contains(m.lines[Here(m)], "endwhile"))
  }

  /** A call line goes to the call handler, at top level or in a body. */
  lemma CallDispatch(env: Env, m: Machine)
    requires AtLine(env, m)
    requires HasParenGroup(m.lines[Here(m)]) && !Contains(m.lines[Here(m)], "method")
    ensures Step(env, m) == Call(env, m)
  {
    var line := m.lines[Here(m)];
    ParenNotBlank(line);
    KeywordTails(line);
    if m.mode.Looping? {
      assert Step(env, m) == BodyStep(env, m);
    }
  }

  /** A call to a method whose entry starts at line `h` remembers the call
      line and name and jumps to `h + 1`, at top level or in a loop body.  It
      binds the formals only when the counts agree, and otherwise leaves the
      store alone. */
  lemma CallEntersBody(env: Env, m: Machine, h: int32, formals: seq<string>, actuals: seq<string>)
    requires AtLine(env, m)
    requires HasParenGroup(m.lines[Here(m)]) && !Contains(m.lines[Here(m)], "method")
    requires |env.lex(m.lines[Here(m)])| > 0
    requires LookupMethod(m.session.vars, env.lex(m.lines[Here(m)])[0].text) == Ok(MethodInfo(IntToString(h), formals))
    requires Actuals(m.session.vars, env.lex(m.lines[Here(m)])[1..]) == Ok(actuals)
    ensures Step(env, m).Continue?
    ensures var n := Step(env, m).next;
      n == Goto(m, Inc(h)).(cursor := Here(m), current := env.lex(m.lines[Here(m)])[0].text, session := n.session)
      && n.session == m.session.(vars := n.session.vars)
      && (|formals| == |actuals| && Distinct(formals) ==>
            forall i | 0 <= i < |formals| :: formals[i] in n.session.vars && n.session.vars[formals[i]] == actuals[i])
      && (|formals| != |actuals| ==> n.session.vars == m.session.vars)
  {
    CallDispatch(env, m);
    Int32ParseRoundTrip(h);
    if |formals| == |actuals| && Distinct(formals) {
      BindValues(m.session.vars, formals, actuals);
    }
  }

  /** A method declared without parameters has the one formal `""`, so a
      call without actuals binds nothing. */
  lemma ZeroParameterCall(env: Env, m: Machine, h: int32)
    requires AtLine(env, m)
    requires HasParenGroup(m.lines[Here(m)]) && !Contains(m.lines[Here(m)], "method")
    requires |env.lex(m.lines[Here(m)])| > 0
    requires LookupMethod(m.session.vars, env.lex(m.lines[Here(m)])[0].text) == Ok(MethodInfo(IntToString(h), [""]))
    requires Actuals(m.session.vars, env.lex(m.lines[Here(m)])[1..]) == Ok([])
    ensures Step(env, m).Continue? && Step(env, m).next.session == m.session
  {
    CallEntersBody(env, m, h, [""], []);
  }

  /** An `endmethod` line goes to the return handler, at top level or in a body. */
  lemma EndMethodDispatch(env: Env, m: Machine)
    requires AtLine(env, m) && Contains(m.lines[Here(m)], "endmethod")
    ensures Step(env, m) == EndMethod(m)
  {
    var line := m.lines[Here(m)];
    ContainsNotBlank(line, "endmethod");
    KeywordTails(line);
    if m.mode.Looping? {
      assert Step(env, m) == BodyStep(env, m);
    }
  }

  /** `endmethod`, at top level or in a loop body, resumes after the last call
      line.  It removes the last called method's formals without restoring
      what they held before, and throws when that method's entry is gone or is
      a scalar.  Before any call of the run it unbinds nothing, but still
      resumes after `cursor`, whose first value is 0. */
  lemma Return(env: Env, m: Machine)
    requires AtLine(env, m) && Contains(m.lines[Here(m)], "endmethod")
    ensures m.current == "" ==> Step(env, m) == Continue(Goto(m, Inc(m.cursor)))
    ensures m.current != "" && LookupMethod(m.session.vars, m.current).Ok? ==>
      var formals := LookupMethod(m.session.vars, m.current).value.formals;
      Step(env, m) == Continue(Goto(m, Inc(m.cursor)).(session := m.session.(vars := Unbind(m.session.vars, formals))))
      && forall i | 0 <= i < |formals| :: formals[i] !in Step(env, m).next.session.vars
    ensures m.current != "" && LookupMethod(m.session.vars, m.current).Err? ==>
      Step(env, m) == Crashed(LookupMethod(m.session.vars, m.current).fault, m.session)
  {
    EndMethodDispatch(env, m);
  }

  /** An `endmethod` met before any call sends the run back to line 1, since
      the remembered call line starts at 0. */
  lemma StrayEndMethod(env: Env, input: string, s: Session, k: int32)
    requires |input| < MaxInt32
    requires 0 <= k as int < |Start(input, s).lines|
    requires Contains(Start(input, s).lines[k], "endmethod")
    ensures Step(env, Start(input, s).(pc := k)) == Continue(Start(input, s).(pc := 1))
  {
    Return(env, Start(input, s).(pc := k));
  }

  /** The lines that dispatch as a condition: not a header, call or `endif`,
      and at top level not a loop header either. */
  predicate ConditionLine(m: Machine, line: string) {
    Contains(line, "if") && !Contains(line, "endif") && !Contains(line, "method")
    && !HasParenGroup(line) && (m.mode.Scanning? ==> !Contains(line, "while"))
  }

  /** A condition line goes to the `if` handler. */
  lemma IfDispatch(env: Env, m: Machine)
    requires AtLine(env, m) && ConditionLine(m, m.lines[Here(m)])
    ensures Step(env, m) == IfLine(env, m)
  {
    var line := m.lines[Here(m)];
    ContainsNotBlank(line, "if");
    KeywordTails(line);
    if m.mode.Looping? {
      assert Step(env, m) == BodyStep(env, m);
    }
  }

  /** A true `if`, at top level or in a loop body, falls through to the next
      line; a false one resumes after the first line at or after it holding
      `endif`, or skips just the next line when there is none.  Neither
      changes the session; an unreadable condition crashes. */
  lemma Conditional(env: Env, m: Machine)
    requires AtLine(env, m) && ConditionLine(m, m.lines[Here(m)])
    ensures ParseUsingIf(env.lex, m.session.vars, m.lines[Here(m)]) == Ok(true) ==>
      Step(env, m) == Continue(Goto(m, Inc(Here(m))))
    ensures ParseUsingIf(env.lex, m.session.vars, m.lines[Here(m)]) == Ok(false) ==>
      var k := FirstContaining(m.lines, Here(m) as nat, "endif");
      (k < |m.lines| ==> Step(env, m) == Continue(Goto(m, Inc(k as int32))))
      && (k == |m.lines| ==> Step(env, m) == Continue(Goto(m, Inc(Here(m) + 1))))
    ensures ParseUsingIf(env.lex, m.session.vars, m.lines[Here(m)]).Err? ==>
      Step(env, m) == Crashed(ParseUsingIf(env.lex, m.session.vars, m.lines[Here(m)]).fault, m.session)
  {
    IfDispatch(env, m);
  }

  /** The lines that dispatch as an assignment: not a condition, header or
      call, and at top level not a loop header either. */
  predicate AssignmentLine(m: Machine, line: string) {
    Contains(line, "=") && !Contains(line, "if") && !Contains(line, "method") && !HasParenGroup(line)
    && (m.mode.Scanning? ==> !Contains(line, "while"))
  }

  /** An assignment line goes to the assignment handler. */
  lemma AssignDispatch(env: Env, m: Machine)
    requires AtLine(env, m) && AssignmentLine(m, m.lines[Here(m)])
    ensures Step(env, m) == AssignLine(env, m)
  {
    var line := m.lines[Here(m)];
    ContainsNotBlank(line, "=");
    KeywordTails(line);
    if m.mode.Looping? {
      assert Step(env, m) == BodyStep(env, m);
    }
  }

  /** An assignment line, at top level or in a loop body: the store the
      evaluator leaves becomes the session's, and the run moves to the next
      line, or stops with the evaluator's fault.  Only the line's target
      entry can change. */
  lemma AssignmentStep(env: Env, m: Machine)
    requires AtLine(env, m) && AssignmentLine(m, m.lines[Here(m)])
    ensures match ParseUsingLexer(env.lex, m.session.vars, m.lines[Here(m)])
      case Normal(v) => Step(env, m) == Continue(Goto(m, Inc(Here(m))).(session := m.session.(vars := v)))
      case Abrupt(f, v) => Step(env, m) == Crashed(f, m.session.(vars := v))
    ensures var x := AssignTarget(env.lex(m.lines[Here(m)]));
      SessionOf(Step(env, m)).vars - {x} == m.session.vars - {x}
  {
    var line := m.lines[Here(m)];
    AssignDispatch(env, m);
    assert SessionOf(AssignLine(env, m)).vars == ParseUsingLexer(env.lex, m.session.vars, line).state;
  }

  /** A top-level `while` header switches to loop mode with the body pointer
      on the next line; the header itself stays the `pc`. */
  lemma LoopEntry(env: Env, m: Machine)
    requires m.mode.Scanning? && 0 <= m.pc as int < |m.lines|
    requires Contains(m.lines[m.pc], "while") && !Contains(m.lines[m.pc], "endwhile")
    requires !Contains(m.lines[m.pc], "method") && !HasParenGroup(m.lines[m.pc])
    ensures Step(env, m) == Continue(m.(mode := Looping(Inc(m.pc))))
  {
    var line := m.lines[m.pc];
    ContainsNotBlank(line, "while");
    KeywordTails(line);
  }

  /** A false header ends the loop: the run resumes after the body line the
      pointer was on, which is therefore not run. */
  lemma LoopExit(env: Env, m: Machine)
    requires m.mode.Looping? && 0 <= m.pc as int < |m.lines|
    requires ParseUsingIf(env.lex, m.session.vars, m.lines[m.pc]) == Ok(false)
    ensures Step(env, m) == Continue(m.(mode := Scanning, pc := Inc(m.mode.body)))
  {
  }

  /** The header is evaluated before every body line, and a pointer past the last
      line under a true header throws. */
  predicate Iterating(env: Env, m: Machine) {
    m.mode.Looping? && 0 <= m.pc as int < |m.lines|
    && ParseUsingIf(env.lex, m.session.vars, m.lines[m.pc]) == Ok(true)
  }

  lemma LoopPastEnd(env: Env, m: Machine)
    requires Iterating(env, m) && m.mode.body as int >= |m.lines|
    ensures Step(env, m) == Crashed(IndexOutOfRange, m.session)
  {
  }

  /** `endwhile` under a true header sends the body pointer back to the line
      after the header. */
  lemma LoopRestart(env: Env, m: Machine)
    requires Iterating(env, m) && 0 <= m.mode.body as int < |m.lines|
    requires Contains(m.lines[m.mode.body], "endwhile")
    ensures Step(env, m) == Continue(m.(mode := Looping(Inc(m.pc))))
  {
  }

  /** A body line holding `endif` (and nothing dispatched before it) under a
      true header: the machine does not move, so the run makes no progress
      whatever the fuel. */
  lemma EndifStalls(env: Env, m: Machine, fuel: nat)
    requires Iterating(env, m) && 0 <= m.mode.body as int < |m.lines|
    requires Contains(m.lines[m.mode.body], "endif") && !Contains(m.lines[m.mode.body], "endwhile")
    requires !Contains(m.lines[m.mode.body], "method") && !HasParenGroup(m.lines[m.mode.body])
    ensures Run(env, m, fuel) == OutOfFuel(m)
  {
    EndifStep(env, m);
    IterateStalls(n => Step(env, n), m, fuel);
  }

  /** A machine that a step leaves as it was is never left, however many
      steps are taken. */
  lemma {:induction false} IterateStalls(step: Machine -> Progress, m: Machine, fuel: nat)
    requires step(m) == Continue(m)
    ensures Iterate(step, m, fuel) == OutOfFuel(m)
    decreases fuel
  {
    if fuel > 0 {
      IterateStalls(step, m, fuel - 1);
    }
  }

  /** One step on such a line leaves the machine as it was. */
  lemma EndifStep(env: Env, m: Machine)
    requires Iterating(env, m) && 0 <= m.mode.body as int < |m.lines|
    requires Contains(m.lines[m.mode.body], "endif") && !Contains(m.lines[m.mode.body], "endwhile")
    requires !Contains(m.lines[m.mode.body], "method") && !HasParenGroup(m.lines[m.mode.body])
    ensures Step(env, m) == Continue(m)
  {
    KeywordTails(m.lines[m.mode.body]);
    assert Step(env, m) == BodyStep(env, m);
  }

  /** A body line that is none of `endwhile`, `endmethod`, a call, `endif`,
      `if` or an assignment goes to `parseCommand` with the 0-based index of
      the line, one less than a top-level line would report.  A nested
      `while` is such a line, and is reported as not recognized. */
  lemma BodyCommand(env: Env, m: Machine)
    requires Iterating(env, m) && 0 <= m.mode.body as int < |m.lines|
    requires var line := m.lines[m.mode.body];
      !Contains(line, "endwhile") && !Contains(line, "method") && !HasParenGroup(line)
      && !Contains(line, "if") && !Contains(line, "=")
    ensures Step(env, m).Continue? ==>
      Step(env, m).next == m.(mode := Looping(Inc(m.mode.body)), session := Step(env, m).next.session)
      && Appends(m.session, Step(env, m).next.session, m.mode.body as int)
    ensures !IsKnown(CommandWord(m.lines[m.mode.body])) ==>
      Step(env, m) == Continue(m.(mode := Looping(Inc(m.mode.body)),
                                  session := Log(m.session, NotRecognized, m.mode.body as int)))
  {
    var line := m.lines[m.mode.body];
    assert Step(env, m) == CommandLine(env, m, m.mode.body as int) by {
      KeywordTails(line);
      assert Step(env, m) == BodyStep(env, m);
    }
  }

  /** Displaying twice shows the log once: the second display finds it empty. */
  lemma DisplayErrorDrains(s: Session, stamp: string, stamp': string)
    ensures DisplayError(DisplayError(s, stamp), stamp') == DisplayError(s, stamp)
  {
  }

  /** An entry logged after others is displayed after their text, in one
      `WriteError` call. */
  lemma DisplayAfterLog(s: Session, message: string, line: int, stamp: string)
    ensures DisplayError(Log(s, message, line), stamp).trace ==
      s.trace + [ErrorsWritten(FormatLog(s.errors, stamp) + FormatEntry(ErrorEntry(message, line), stamp))]
  {
    var e := ErrorEntry(message, line);
    FormatLogAppend(s.errors, [e], stamp);
    var one := seq(1, i requires 0 <= i < 1 => FormatEntry([e][i], stamp));
    assert FormatLog([e], stamp) == Concat(one);
    assert one[1..] == [];
    assert FormatLog([e], stamp) == FormatEntry(e, stamp);
    FormatLogEmpty(s.errors + [e], stamp);
  }
}

=== FILE: evaluator.dfy ===
/** The expression evaluator: assignment lines (`parseUsingLexer`) fold their
    operands strictly left to right with no precedence; condition lines
    (`parseUsingIf`) apply one comparison.  Both read variables as decimal
    text with `Int32.Parse`. */
module Evaluator {
  import opened Wrappers
  import opened Ints
  import opened Numerals
  import opened Tokens
  import opened Store

  // ------------------------------------------------------------ arithmetic

  predicate IsArithmetic(op: string) {
    op == "%" || op == "+" || op == "-" || op == "/" || op == "*"
  }

  /** `result op= operand` in the fold's `switch`: unchecked `+ - *`, C#'s
      `/` and `%`, and no effect for any other operator text. */
  function ApplyOp(op: string, acc: int32, n: int32): (r: Result<int32>)
    ensures !IsArithmetic(op) ==> r == Ok(acc)
    ensures r.Err? <==> (op == "%" || op == "/") && (n == 0 || (acc == MinInt32 && n == -1))
    ensures r.Err? ==> r.fault == (if n == 0 then DivideByZero else Overflow)
  {
    if op == "%" || op == "/" then
      if n == 0 then Err(DivideByZero)
      else if acc == MinInt32 && n == -1 then Err(Overflow)
      else
        if op == "%" then RemInRange(acc, n); Ok(Rem(acc, n))
        else QuotInRange(acc, n); Ok(Quot(acc, n))
    else if op == "+" then Ok(Wrap(acc + n))
    else if op == "-" then Ok(Wrap(acc - n))
    else if op == "*" then Ok(Wrap(acc * n))
    else Ok(acc)
  }

  /** The exact result of `+`, `-` or `*` over the unbounded integers. */
  function Exact(op: string, acc: int, n: int): int {
    if op == "+" then acc + n else if op == "-" then acc - n else acc * n
  }

  /** `+`, `-` and `*` never throw.  They are exact when the exact result fits
      in an `int`, and otherwise wrap around: the result is congruent to the
      exact one modulo 2^32. */
  lemma WrappingMeaning(op: string, acc: int32, n: int32)
    requires op == "+" || op == "-" || op == "*"
    ensures ApplyOp(op, acc, n).Ok?
    ensures (ApplyOp(op, acc, n).value - Exact(op, acc, n)) % Modulus == 0
    ensures MinInt32 <= Exact(op, acc, n) <= MaxInt32 ==> ApplyOp(op, acc, n).value == Exact(op, acc, n)
  {
    var x := Exact(op, acc, n);
    assert ApplyOp(op, acc, n) == Ok(Wrap(x));
  }

  lemma RemInRange(a: int32, b: int32)
    requires b != 0
    ensures MinInt32 <= Rem(a, b) <= MaxInt32
  {
    QuotRem(a, b);
  }

  /** Division truncates: quotient and remainder recompose the dividend, the
      remainder is smaller than the divisor and has the dividend's sign. */
  lemma DivisionMeaning(acc: int32, n: int32)
    requires n != 0 && !(acc == MinInt32 && n == -1)
    ensures ApplyOp("/", acc, n).Ok? && ApplyOp("%", acc, n).Ok?
    ensures ApplyOp("/", acc, n).value * n + ApplyOp("%", acc, n).value == acc
    ensures Abs(ApplyOp("%", acc, n).value) < Abs(n)
    ensures acc >= 0 ==> ApplyOp("%", acc, n).value >= 0
    ensures acc <= 0 ==> ApplyOp("%", acc, n).value <= 0
  {
    QuotRem(acc, n);
  }

  /** The fold: `result = numbersList[0]`, then for each further operand the
      next operator is dequeued and applied.  Defined by its last step, so
      `a o1 b o2 c` is `(a o1 b) o2 c`. */
  function Fold(nums: seq<int32>, ops: seq<string>): (r: Result<int32>)
    requires |nums| > 0
    ensures |nums| == 1 ==> r == Ok(nums[0])
    ensures r.Ok? ==> |ops| >= |nums| - 1
    ensures r.Err? ==> r.fault == EmptyQueue || r.fault == DivideByZero || r.fault == Overflow
    decreases |nums|
  {
    if |nums| == 1 then Ok(nums[0])
    else
      var acc :- Fold(nums[..|nums| - 1], ops);
      if |nums| - 2 < |ops| then ApplyOp(ops[|nums| - 2], acc, nums[|nums| - 1])
      else Err(EmptyQueue)
  }

  /** One more operand: the fold of a longer prefix from the fold of the shorter one. */
  lemma FoldSnoc(nums: seq<int32>, ops: seq<string>, j: nat)
    requires 1 <= j < |nums|
    ensures Fold(nums[..j + 1], ops) ==
      if Fold(nums[..j], ops).Err? then Fold(nums[..j], ops)
      else if j - 1 < |ops| then ApplyOp(ops[j - 1], Fold(nums[..j], ops).value, nums[j])
      else Err(EmptyQueue)
  {
    var pre := nums[..j + 1];
    assert pre[..|pre| - 1] == nums[..j];
    assert pre[|pre| - 1] == nums[j];
  }

  /** A fault in the fold of a prefix is the fault of the whole fold. */
  lemma {:induction false} FoldFaultSticks(nums: seq<int32>, ops: seq<string>, j: nat)
    requires 1 <= j <= |nums| && Fold(nums[..j], ops).Err?
    ensures Fold(nums, ops) == Fold(nums[..j], ops)
    decreases |nums| - j
  {
    if j < |nums| {
      FoldSnoc(nums, ops, j);
      FoldFaultSticks(nums, ops, j + 1);
    } else {
      assert nums[..j] == nums;
    }
  }

  /** The fold loop as written: a running result and a queue of operators
      consumed from the front.  It computes `Fold`. */
  method FoldLoop(nums: seq<int32>, ops: seq<string>) returns (r: Result<int32>)
    requires |nums| > 0
    ensures r == Fold(nums, ops)
  {
    var result := nums[0];
    var queue := ops;
    var j := 1;
    assert nums[..1] == [nums[0]];
    while j < |nums|
      invariant 1 <= j <= |nums|
      invariant Fold(nums[..j], ops) == Ok(result)
      invariant j - 1 <= |ops| && queue == ops[j - 1..]
    {
      FoldSnoc(nums, ops, j);
      if |queue| == 0 {
        FoldFaultSticks(nums, ops, j + 1);
        return Err(EmptyQueue);
      }
      var step := ApplyOp(queue[0], result, nums[j]);
      if step.Err? {
        FoldFaultSticks(nums, ops, j + 1);
        return step;
      }
      result := step.value;
      queue := queue[1..];
      j := j + 1;
    }
    assert nums[..j] == nums;
    return Ok(result);
  }

  /** Operators after the ones the operands consume are never dequeued. */
  lemma {:induction false} FoldIgnoresSurplus(nums: seq<int32>, ops: seq<string>, extra: seq<string>)
    requires |nums| > 0 && |ops| >= |nums| - 1
    ensures Fold(nums, ops + extra) == Fold(nums, ops)
    decreases |nums|
  {
    if |nums| > 1 {
      FoldIgnoresSurplus(nums[..|nums| - 1], ops, extra);
      assert (ops + extra)[|nums| - 2] == ops[|nums| - 2];
    }
  }

  /** `10 - 2 * 3` is `(10 - 2) * 3`. */
  lemma NoPrecedence(nums: seq<int32>, ops: seq<string>)
    requires |nums| == 3 && nums[0] == 10 && nums[1] == 2 && nums[2] == 3
    requires |ops| == 2 && ops[0] == "-" && ops[1] == "*"
    ensures Fold(nums, ops) == Ok(24)
  {
    assert nums[..1] == [10];
    FoldSnoc(nums, ops, 1);
    FoldSnoc(nums, ops, 2);
    assert nums[..3] == nums;
  }

  // ------------------------------------------------------------ operands

  /** An operand token's value: a variable's text or the token's own text,
      through `int.Parse`. */
  function Operand(vars: Vars, t: Token): (r: Result<int32>)
    requires !t.Operator?
    ensures t.Identifier? && t.text !in vars ==> r == Err(KeyNotFound(t.text))
    ensures r.Err? ==> r.fault.KeyNotFound? || r.fault == BadFormat || r.fault == Overflow
  {
    if t.Identifier? then
      if t.text in vars then Int32Parse(vars[t.text]) else Err(KeyNotFound(t.text))
    else Int32Parse(t.text)
  }

  datatype Operands = Operands(nums: seq<int32>, ops: seq<string>)

  /** The number and identifier tokens at positions `from` to `to`, in order. */
  function OperandTokens(toks: seq<Token>, from: nat, to: nat): (ts: seq<Token>)
    requires from <= to <= |toks|
    ensures forall k | 0 <= k < |ts| :: !ts[k].Operator?
    decreases (to as int) - from
  {
    if from == to then []
    else if toks[from].Operator? then OperandTokens(toks, from + 1, to)
    else [toks[from]] + OperandTokens(toks, from + 1, to)
  }

  /** The texts of the operator tokens at positions `from` to `to`, in order. */
  function OperatorTexts(toks: seq<Token>, from: nat, to: nat): (texts: seq<string>)
    requires from <= to <= |toks|
    ensures |texts| + |OperandTokens(toks, from, to)| == (to as int) - from
    decreases (to as int) - from
  {
    if from == to then []
    else if toks[from].Operator? then [toks[from].text] + OperatorTexts(toks, from + 1, to)
    else OperatorTexts(toks, from + 1, to)
  }

  /** Every operand token of the range has a value. */
  predicate Resolvable(vars: Vars, toks: seq<Token>, from: nat, to: nat)
    requires from <= to <= |toks|
  {
    var ts := OperandTokens(toks, from, to);
    forall k | 0 <= k < |ts| :: Operand(vars, ts[k]).Ok?
  }

  /** A range with an operand first resolves when the operand and the rest do. */
  lemma ResolvableStep(vars: Vars, toks: seq<Token>, from: nat, to: nat)
    requires from < to <= |toks| && !toks[from].Operator?
    ensures Resolvable(vars, toks, from, to)
        <==> Operand(vars, toks[from]).Ok? && Resolvable(vars, toks, from + 1, to)
  {
    var ts := OperandTokens(toks, from + 1, to);
    var us := OperandTokens(toks, from, to);
    assert us == [toks[from]] + ts;
    assert us[0] == toks[from];
    assert forall k | 0 <= k < |ts| :: us[k + 1] == ts[k];
    if Operand(vars, toks[from]).Ok? && Resolvable(vars, toks, from + 1, to) {
      forall k | 0 < k < |us| ensures Operand(vars, us[k]).Ok? {
        assert us[(k - 1) + 1] == ts[k - 1];
      }
    }
  }

  /** The `foreach` that splits the tokens at positions `from` to `to` into
      `numbersList` and the operator queue, resolving each operand as it
      goes; the first operand that cannot be resolved ends it. */
  function Gather(vars: Vars, toks: seq<Token>, from: nat, to: nat): (r: Result<Operands>)
    requires from <= to <= |toks|
    ensures r.Ok? ==> |r.value.nums| + |r.value.ops| == (to as int) - from
    decreases (to as int) - from
  {
    if from == to then Ok(Operands([], []))
    else if toks[from].Operator? then
      var rest :- Gather(vars, toks, from + 1, to);
      Ok(Operands(rest.nums, [toks[from].text] + rest.ops))
    else
      var n :- Operand(vars, toks[from]);
      var rest :- Gather(vars, toks, from + 1, to);
      Ok(Operands([n] + rest.nums, rest.ops))
  }

  /** The split fails exactly when one of the range's operands has no value,
      and then with that operand's fault. */
  lemma GatherFails(vars: Vars, toks: seq<Token>, from: nat, to: nat)
    requires from <= to <= |toks|
    ensures var r := Gather(vars, toks, from, to);
      (r.Ok? <==> Resolvable(vars, toks, from, to))
      && (r.Err? ==> r.fault.KeyNotFound? || r.fault == BadFormat || r.fault == Overflow)
  {
    GatherResolves(vars, toks, from, to);
    GatherFaults(vars, toks, from, to);
  }

  lemma {:induction false} GatherResolves(vars: Vars, toks: seq<Token>, from: nat, to: nat)
    requires from <= to <= |toks|
    ensures Gather(vars, toks, from, to).Ok? <==> Resolvable(vars, toks, from, to)
    decreases (to as int) - from
  {
    if from < to {
      GatherResolves(vars, toks, from + 1, to);
      GatherOkStep(vars, toks, from, to);
      if !toks[from].Operator? {
        ResolvableStep(vars, toks, from, to);
      } else {
        assert OperandTokens(toks, from, to) == OperandTokens(toks, from + 1, to);
      }
    }
  }

  /** The split of a range succeeds when its first token is an operator or
      resolves, and the split of the rest succeeds. */
  lemma GatherOkStep(vars: Vars, toks: seq<Token>, from: nat, to: nat)
    requires from < to <= |toks|
    ensures Gather(vars, toks, from, to).Ok?
        <==> (toks[from].Operator? || Operand(vars, toks[from]).Ok?) && Gather(vars, toks, from + 1, to).Ok?
  {
  }

  lemma {:induction false} GatherFaults(vars: Vars, toks: seq<Token>, from: nat, to: nat)
    requires from <= to <= |toks|
    ensures var r := Gather(vars, toks, from, to);
      r.Err? ==> r.fault.KeyNotFound? || r.fault == BadFormat || r.fault == Overflow
    decreases (to as int) - from
  {
    if from < to {
      GatherFaults(vars, toks, from + 1, to);
    }
  }

  /** The split is a filter: the operator queue holds the texts of the range's
      operator tokens in order, and `numbersList` the values of its other
      tokens in order. */
  lemma GatherFilters(vars: Vars, toks: seq<Token>, from: nat, to: nat)
    requires from <= to <= |toks|
    ensures var r := Gather(vars, toks, from, to);
      var ts := OperandTokens(toks, from, to);
      r.Ok? ==>
        r.value.ops == OperatorTexts(toks, from, to) && |r.value.nums| == |ts|
        && forall k | 0 <= k < |ts| :: Operand(vars, ts[k]) == Ok(r.value.nums[k])
  {
    GatherOperators(vars, toks, from, to);
    var r := Gather(vars, toks, from, to);
    if r.Ok? {
      GatherNumbers(vars, toks, from, to, r.value);
    }
  }

  lemma {:induction false} GatherOperators(vars: Vars, toks: seq<Token>, from: nat, to: nat)
    requires from <= to <= |toks|
    ensures var r := Gather(vars, toks, from, to);
      r.Ok? ==> r.value.ops == OperatorTexts(toks, from, to)
    decreases (to as int) - from
  {
    if from < to {
      GatherOperators(vars, toks, from + 1, to);
    }
  }

  lemma {:induction false} GatherNumbers(vars: Vars, toks: seq<Token>, from: nat, to: nat, o: Operands)
    requires from <= to <= |toks| && Gather(vars, toks, from, to) == Ok(o)
    ensures var ts := OperandTokens(toks, from, to);
      |o.nums| == |ts| && forall k | 0 <= k < |ts| :: Operand(vars, ts[k]) == Ok(o.nums[k])
    decreases (to as int) - from
  {
    if from < to {
      var rest := Gather(vars, toks, from + 1, to).value;
      GatherNumbers(vars, toks, from + 1, to, rest);
      if !toks[from].Operator? {
        var n := Operand(vars, toks[from]).value;
        assert o.nums == [n] + rest.nums;
        ValuesCons(vars, toks[from], OperandTokens(toks, from + 1, to), n, rest.nums);
      }
    }
  }

  /** Operand values stay aligned with their tokens when one more is put in
      front of both. */
  lemma ValuesCons(vars: Vars, t: Token, ts: seq<Token>, n: int32, ns: seq<int32>)
    requires !t.Operator? && Operand(vars, t) == Ok(n)
    requires forall k | 0 <= k < |ts| :: !ts[k].Operator?
    requires |ns| == |ts| && forall k | 0 <= k < |ts| :: Operand(vars, ts[k]) == Ok(ns[k])
    ensures forall k | 0 <= k < |ts| + 1 :: Operand(vars, ([t] + ts)[k]) == Ok(([n] + ns)[k])
  {
    var p := (x: Token, v: int32) => !x.Operator? && Operand(vars, x) == Ok(v);
    AlignedCons(p, t, ts, n, ns);
  }

  /** Two sequences related index by index stay so when one more related pair
      is put in front. */
  lemma AlignedCons<T, U>(p: (T, U) -> bool, t: T, ts: seq<T>, n: U, ns: seq<U>)
    requires p(t, n) && |ns| == |ts| && forall k | 0 <= k < |ts| :: p(ts[k], ns[k])
    ensures forall k | 0 <= k < |ts| + 1 :: p(([t] + ts)[k], ([n] + ns)[k])
  {
    forall k | 0 < k < |ts| + 1 ensures p(([t] + ts)[k], ([n] + ns)[k]) {
      assert ([t] + ts)[k] == ts[k - 1] && ([n] + ns)[k] == ns[k - 1];
    }
  }

  lemma GatherOperand(vars: Vars, toks: seq<Token>, from: nat, to: nat, n: int32, o: Operands)
    returns (o': Operands)
    requires from < to <= |toks| && !toks[from].Operator? && Operand(vars, toks[from]) == Ok(n)
    requires Gather(vars, toks, from + 1, to) == Ok(o)
    ensures Gather(vars, toks, from, to) == Ok(o') && o'.nums == [n] + o.nums && o'.ops == o.ops
  {
    o' := Operands([n] + o.nums, o.ops);
  }

  lemma GatherOperator(vars: Vars, toks: seq<Token>, from: nat, to: nat, o: Operands)
    returns (o': Operands)
    requires from < to <= |toks| && toks[from].Operator?
    requires Gather(vars, toks, from + 1, to) == Ok(o)
    ensures Gather(vars, toks, from, to) == Ok(o') && o'.nums == o.nums && o'.ops == [toks[from].text] + o.ops
  {
    o' := Operands(o.nums, [toks[from].text] + o.ops);
  }

  /** The values of operand tokens that all resolve, in order. */
  function Values(vars: Vars, ts: seq<Token>): (ns: seq<int32>)
    requires forall k | 0 <= k < |ts| :: !ts[k].Operator? && Operand(vars, ts[k]).Ok?
    ensures |ns| == |ts| && forall k | 0 <= k < |ts| :: Operand(vars, ts[k]) == Ok(ns[k])
  {
    seq(|ts|, k requires 0 <= k < |ts| => Operand(vars, ts[k]).value)
  }

  /** The right-hand side of an assignment, the tokens from `from` on: its
      operands folded; with no operand at all, `numbersList[0]` is out of
      range. */
  function Evaluate(vars: Vars, toks: seq<Token>, from: nat): (r: Result<int32>)
    requires from <= |toks|
    ensures |OperandTokens(toks, from, |toks|)| == 0 ==> r == Err(BadRange)
    ensures r.Ok? ==> Resolvable(vars, toks, from, |toks|)
    ensures r.Ok? ==> |OperatorTexts(toks, from, |toks|)| >= |OperandTokens(toks, from, |toks|)| - 1
    ensures var ts := OperandTokens(toks, from, |toks|);
      Resolvable(vars, toks, from, |toks|) && |ts| > 0 ==>
        r == Fold(Values(vars, ts), OperatorTexts(toks, from, |toks|))
  {
    GatherFails(vars, toks, from, |toks|);
    GatherFilters(vars, toks, from, |toks|);
    var o :- Gather(vars, toks, from, |toks|);
    var ts := OperandTokens(toks, from, |toks|);
    if |o.nums| == 0 then Err(BadRange)
    else
      assert o.nums == Values(vars, ts);
      Fold(o.nums, o.ops)
  }

  // ------------------------------------------------------------ assignment

  /** The name an assignment line writes: its first token's text when that is
      an identifier, otherwise the empty name the loop starts with. */
  function AssignTarget(tokens: seq<Token>): string {
    if |tokens| > 0 && tokens[0].Identifier? then tokens[0].text else ""
  }

  /** The token loop of `parseUsingLexer` from index `i`, with `name` the
      variable name found so far: the empty name before the first token, the
      line's target after it. Completed or not, the line changes at most the
      entry of its target. */
  function Assignment(tokens: seq<Token>, i: nat, name: string, vars: Vars): (r: Outcome<Vars>)
    requires i <= |tokens|
    requires (i == 0 && name == "") || (i > 0 && name == AssignTarget(tokens))
    ensures r.state - {AssignTarget(tokens)} == vars - {AssignTarget(tokens)}
    decreases |tokens| - i
  {
    if i == |tokens| then Normal(vars)
    else
      var t := tokens[i];
      var name' := if t.Identifier? && i == 0 then t.text else name;
      var x := AssignTarget(tokens);
      assert name' == x;
      if t == Operator("=") && |tokens| > 3 then
        match Evaluate(vars, tokens, 2)
        case Ok(v) => assert vars[name' := IntToString(v)] - {x} == vars - {x}; Normal(vars[name' := IntToString(v)])
        case Err(f) => Abrupt(f, vars)
      else if t.Identifier? && i > 0 then
        if t.text in vars then
          assert vars[name' := vars[t.text]] - {x} == vars - {x};
          Assignment(tokens, i + 1, name', vars[name' := vars[t.text]])
        else Abrupt(KeyNotFound(t.text), vars)
      else if t.Number? && i > 0 then
        assert vars[name' := t.text] - {x} == vars - {x};
        Assignment(tokens, i + 1, name', vars[name' := t.text])
      else Assignment(tokens, i + 1, name', vars)
  }

  /** `parseUsingLexer(line)`: an assignment line, completed or not, changes
      at most the entry of its first identifier (or of the empty name when it
      does not start with one). */
  function ParseUsingLexer(lex: Lexer, vars: Vars, line: string): (r: Outcome<Vars>)
    ensures r.state - {AssignTarget(lex(line))} == vars - {AssignTarget(lex(line))}
  {
    Assignment(lex(line), 0, "", vars)
  }

  /** `x = e` with at least two right-hand tokens stores the fold of `e` as
      decimal text under `x`, or stops with the fold's fault and no change. */
  lemma ExpressionAssignment(lex: Lexer, vars: Vars, line: string, x: string)
    requires |lex(line)| > 3
    requires lex(line)[0] == Identifier(x) && lex(line)[1] == Operator("=")
    ensures match Evaluate(vars, lex(line), 2)
      case Ok(v) => ParseUsingLexer(lex, vars, line) == Normal(vars[x := IntToString(v)])
      case Err(f) => ParseUsingLexer(lex, vars, line) == Abrupt(f, vars)
  {
    var tokens := lex(line);
    assert ParseUsingLexer(lex, vars, line) == Assignment(tokens, 1, x, vars);
  }

  /** `x = 5` stores the literal's text and `x = y` copies `y`'s entry, with no
      parsing; an unknown `y` stops the line with the store unchanged. */
  lemma CopyAssignment(lex: Lexer, vars: Vars, line: string, x: string)
    requires |lex(line)| == 3
    requires lex(line)[0] == Identifier(x) && lex(line)[1] == Operator("=")
    ensures lex(line)[2].Number? ==>
      ParseUsingLexer(lex, vars, line) == Normal(vars[x := lex(line)[2].text])
    ensures lex(line)[2].Identifier? && lex(line)[2].text in vars ==>
      ParseUsingLexer(lex, vars, line) == Normal(vars[x := vars[lex(line)[2].text]])
    ensures lex(line)[2].Identifier? && lex(line)[2].text !in vars ==>
      ParseUsingLexer(lex, vars, line) == Abrupt(KeyNotFound(lex(line)[2].text), vars)
  {
    var tokens := lex(line);
    assert ParseUsingLexer(lex, vars, line) == Assignment(tokens, 1, x, vars);
    assert Assignment(tokens, 1, x, vars) == Assignment(tokens, 2, x, vars);
    var t := tokens[2];
    if t.Number? {
      assert Assignment(tokens, 2, x, vars) == Assignment(tokens, 3, x, vars[x := t.text]);
    } else if t.Identifier? && t.text in vars {
      assert Assignment(tokens, 2, x, vars) == Assignment(tokens, 3, x, vars[x := vars[t.text]]);
    }
  }

  /** What an assignment stores reads back as the value it computed. */
  lemma AssignedValueReadsBack(lex: Lexer, vars: Vars, line: string, x: string, v: int32)
    requires |lex(line)| > 3
    requires lex(line)[0] == Identifier(x) && lex(line)[1] == Operator("=")
    requires Evaluate(vars, lex(line), 2) == Ok(v)
    ensures Operand(ParseUsingLexer(lex, vars, line).state, Identifier(x)) == Ok(v)
  {
    ExpressionAssignment(lex, vars, line, x);
    Int32ParseRoundTrip(v);
  }

  lemma SmallNumerals()
    ensures IntToString(10) == "10" && IntToString(2) == "2"
    ensures IntToString(3) == "3" && IntToString(24) == "24"
  {
    assert NatToString(1) == "1";
    assert NatToString(2) == "2";
  }

  lemma NumberOperand(vars: Vars, text: string, n: int32)
    requires text == IntToString(n)
    ensures Operand(vars, Number(text)) == Ok(n)
  {
    Int32ParseRoundTrip(n);
  }

  /** `a o1 b o2 c` from position `k` gathers into three operands and two
      operators. */
  lemma ThreeOperands(vars: Vars, toks: seq<Token>, k: nat, a: int32, b: int32, c: int32)
    returns (o: Operands)
    requires k + 5 == |toks| && toks[k + 1].Operator? && toks[k + 3].Operator?
    requires !toks[k].Operator? && !toks[k + 2].Operator? && !toks[k + 4].Operator?
    requires Operand(vars, toks[k]) == Ok(a) && Operand(vars, toks[k + 2]) == Ok(b)
    requires Operand(vars, toks[k + 4]) == Ok(c)
    ensures Gather(vars, toks, k, |toks|) == Ok(o)
    ensures |o.nums| == 3 && o.nums[0] == a && o.nums[1] == b && o.nums[2] == c
    ensures |o.ops| == 2 && o.ops[0] == toks[k + 1].text && o.ops[1] == toks[k + 3].text
  {
    var n := |toks|;
    var o5 := GatherOperand(vars, toks, k + 4, n, c, Operands([], []));
    var o4 := GatherOperator(vars, toks, k + 3, n, o5);
    var o3 := GatherOperand(vars, toks, k + 2, n, b, o4);
    var o2 := GatherOperator(vars, toks, k + 1, n, o3);
    o := GatherOperand(vars, toks, k, n, a, o2);
  }

  /** The right-hand side `10 - 2 * 3` evaluates to 24. */
  lemma ExampleEvaluates(vars: Vars, tokens: seq<Token>)
    requires tokens == [Identifier("a"), Operator("="), Number("10"), Operator("-"),
                        Number("2"), Operator("*"), Number("3")]
    ensures Evaluate(vars, tokens, 2) == Ok(24)
  {
    SmallNumerals();
    NumberOperand(vars, "10", 10);
    NumberOperand(vars, "2", 2);
    NumberOperand(vars, "3", 3);
    var o := ThreeOperands(vars, tokens, 2, 10, 2, 3);
    NoPrecedence(o.nums, o.ops);
  }

  /** `a = 10 - 2 * 3` stores `"24"`. */
  lemma AssignmentExample(vars: Vars, tokens: seq<Token>)
    requires tokens == [Identifier("a"), Operator("="), Number("10"), Operator("-"),
                        Number("2"), Operator("*"), Number("3")]
    ensures Assignment(tokens, 0, "", vars) == Normal(vars["a" := "24"])
  {
    ExampleEvaluates(vars, tokens);
    SmallNumerals();
    assert Assignment(tokens, 0, "", vars) == Assignment(tokens, 1, "a", vars);
  }

  // ------------------------------------------------------------ comparison

  predicate IsComparison(op: string) {
    op == "<" || op == ">" || op == "<=" || op == ">=" || op == "==" || op == "!="
  }

  /** The condition `switch`: one of the six comparisons, else `false`. */
  function Compare(op: string, left: int32, right: int32): (b: bool)
    ensures !IsComparison(op) ==> !b
  {
    match op
    case "<" => left < right
    case ">" => left > right
    case "<=" => left <= right
    case ">=" => left >= right
    case "==" => left == right
    case "!=" => left != right
    case _ => false
  }

  /** The comparison that holds exactly when `op` fails. */
  function Negated(op: string): string
    requires IsComparison(op)
  {
    match op
    case "<" => ">="
    case ">" => "<="
    case "<=" => ">"
    case ">=" => "<"
    case "==" => "!="
    case _ => "=="
  }

  /** Each supported comparison has its complement among the six. */
  lemma CompareNegated(op: string, left: int32, right: int32)
    requires IsComparison(op)
    ensures IsComparison(Negated(op))
    ensures Compare(Negated(op), left, right) == !Compare(op, left, right)
  {
  }

  /** The comparison of a condition's operands: the first two, with the last
      operator seen. */
  function Test(o: Operands): bool
    requires |o.nums| >= 2
  {
    Compare(if |o.ops| == 0 then "" else o.ops[|o.ops| - 1], o.nums[0], o.nums[1])
  }

  /** `parseUsingIf(line)`: tokens 1 to 3 (`GetRange(1, 3)`) give the
      operands and the operator. */
  function ParseUsingIf(lex: Lexer, vars: Vars, line: string): (r: Result<bool>)
    ensures |lex(line)| < 4 ==> r == Err(BadRange)
    ensures r.Err? ==> r.fault == BadRange || r.fault.KeyNotFound? || r.fault == BadFormat || r.fault == Overflow
  {
    ConditionOf(vars, lex(line))
  }

  /** The condition of a line's tokens: it has a value exactly when there are
      four tokens, at least two operands among tokens 1 to 3, and each of
      them resolves; fewer than four tokens make `GetRange(1, 3)` throw, and
      an unbound identifier operand throws. */
  function ConditionOf(vars: Vars, tokens: seq<Token>): (r: Result<bool>)
    ensures |tokens| < 4 ==> r == Err(BadRange)
    ensures |tokens| >= 4 && tokens[1].Identifier? && tokens[1].text !in vars ==>
      r == Err(KeyNotFound(tokens[1].text))
    ensures r.Ok? <==> |tokens| >= 4 && Resolvable(vars, tokens, 1, 4) && |OperandTokens(tokens, 1, 4)| >= 2
    ensures r.Err? ==> r.fault == BadRange || r.fault.KeyNotFound? || r.fault == BadFormat || r.fault == Overflow
  {
    if |tokens| < 4 then Err(BadRange)
    else
      GatherFails(vars, tokens, 1, 4);
      GatherFilters(vars, tokens, 1, 4);
      var o :- Gather(vars, tokens, 1, 4);
      if |o.nums| < 2 then Err(BadRange) else Ok(Test(o))
  }

  lemma ConditionOperands(vars: Vars, tokens: seq<Token>, op: string, left: int32, right: int32)
    returns (o: Operands)
    requires |tokens| >= 4 && !tokens[1].Operator? && !tokens[3].Operator?
    requires tokens[2] == Operator(op)
    requires Operand(vars, tokens[1]) == Ok(left) && Operand(vars, tokens[3]) == Ok(right)
    ensures Gather(vars, tokens, 1, 4) == Ok(o) && |o.nums| == 2 && Test(o) == Compare(op, left, right)
  {
    var o3 := GatherOperand(vars, tokens, 3, 4, right, Operands([], []));
    var o2 := GatherOperator(vars, tokens, 2, 4, o3);
    o := GatherOperand(vars, tokens, 1, 4, left, o2);
  }

  /** A condition `kw a op b ...` compares the values of `a` and `b` with
      `op`; an unsupported `op` makes it false; tokens after the fourth are
      never looked at. */
  lemma Condition(vars: Vars, tokens: seq<Token>, op: string, left: int32, right: int32)
    requires |tokens| >= 4 && !tokens[1].Operator? && !tokens[3].Operator?
    requires tokens[2] == Operator(op)
    requires Operand(vars, tokens[1]) == Ok(left) && Operand(vars, tokens[3]) == Ok(right)
    ensures ConditionOf(vars, tokens) == Ok(Compare(op, left, right))
    ensures !IsComparison(op) ==> ConditionOf(vars, tokens) == Ok(false)
  {
    var o := ConditionOperands(vars, tokens, op, left, right);
  }

}

=== FILE: ints.dfy ===
/** C#'s 32-bit `int`: its range, the unchecked wrap-around of `+ - * ++`, and
    `/` and `%`, which truncate toward zero (Dafny's own `/` and `%` are
    Euclidean and are used here only on non-negative operands). */
module Ints {

  const MinInt32: int := -0x8000_0000
  const MaxInt32: int := 0x7FFF_FFFF
  const Modulus: int := 0x1_0000_0000

  type int32 = x: int | MinInt32 <= x <= MaxInt32

  function Abs(x: int): nat {
    if x < 0 then -x else x
  }

  /** Two's-complement reduction of an exact result into `int32`. */
  function Wrap(x: int): (r: int32)
    ensures MinInt32 <= x <= MaxInt32 ==> r == x
    ensures (x - r) % Modulus == 0
  {
    (x - MinInt32) % Modulus + MinInt32
  }

  /** `x++` in an unchecked context. */
  function Inc(x: int32): (r: int32)
    ensures x < MaxInt32 ==> r == x + 1
    ensures x == MaxInt32 ==> r == MinInt32
  {
    Wrap(x + 1)
  }

  /** C# integer division: the quotient truncated toward zero. */
  function Quot(a: int, b: int): int
    requires b != 0
  {
    var q := Abs(a) / Abs(b);
    if (a < 0) == (b < 0) then q else -q
  }

  /** C# remainder: its sign is the sign of the dividend. */
  function Rem(a: int, b: int): int
    requires b != 0
  {
    var r := Abs(a) % Abs(b);
    if a < 0 then -r else r
  }

  /** Euclidean facts about non-negative operands that the sign cases reuse. */
  lemma NatDivision(A: nat, B: nat)
    requires B > 0
    ensures A == (A / B) * B + A % B
    ensures 0 <= A % B < B
    ensures 0 <= (A / B) * B <= A
  {
  }

  /** Quot and Rem form C#'s division identity, the remainder is smaller than
      the divisor and takes the dividend's sign, and the quotient is never
      further from zero than the exact one. */
  lemma QuotRem(a: int, b: int)
    requires b != 0
    ensures Quot(a, b) * b + Rem(a, b) == a
    ensures Abs(Rem(a, b)) < Abs(b)
    ensures a >= 0 ==> Rem(a, b) >= 0
    ensures a <= 0 ==> Rem(a, b) <= 0
    ensures Abs(Quot(a, b)) * Abs(b) <= Abs(a)
  {
    var A, B := Abs(a), Abs(b);
    NatDivision(A, B);
    var q, r := A / B, A % B;
    SignedProducts(q, B);
    if a < 0 {
      if b < 0 { SameSigns(a, b, q, r); } else { MixedSigns(a, b, q, r); }
    } else {
      if b < 0 { MixedSigns(a, b, q, r); } else { SameSigns(a, b, q, r); }
    }
  }

  /** Negating either factor negates the product. */
  lemma SignedProducts(x: int, y: int)
    ensures (-x) * y == -(x * y) && x * (-y) == -(x * y) && (-x) * (-y) == x * y
  {
  }

  /** Dividend and divisor of one sign: the quotient is the quotient of the
      magnitudes and the remainder carries the dividend's sign. */
  lemma SameSigns(a: int, b: int, q: int, r: int)
    requires b != 0 && (a < 0) == (b < 0)
    requires q == Abs(a) / Abs(b) && r == Abs(a) % Abs(b)
    requires Abs(a) == q * Abs(b) + r
    requires q * (-(Abs(b) as int)) == -(q * Abs(b))
    ensures Quot(a, b) * b + Rem(a, b) == a
  {
    assert Quot(a, b) == q;
    assert Rem(a, b) == (if a < 0 then -r else r);
  }

  /** Dividend and divisor of opposite signs: the quotient is the negated
      quotient of the magnitudes. */
  lemma MixedSigns(a: int, b: int, q: int, r: int)
    requires b != 0 && (a < 0) != (b < 0)
    requires q == Abs(a) / Abs(b) && r == Abs(a) % Abs(b)
    requires Abs(a) == q * Abs(b) + r
    requires (-q) * Abs(b) == -(q * Abs(b)) && (-q) * (-(Abs(b) as int)) == q * Abs(b)
    ensures Quot(a, b) * b + Rem(a, b) == a
  {
    assert Quot(a, b) == -q;
    assert Rem(a, b) == (if a < 0 then -r else r);
  }

  /** The only int32 division whose quotient leaves the range is MinValue / -1. */
  lemma QuotInRange(a: int32, b: int32)
    requires b != 0
    requires !(a == MinInt32 && b == -1)
    ensures MinInt32 <= Quot(a, b) <= MaxInt32
  {
    var A, B := Abs(a), Abs(b);
    assert A <= 0x8000_0000;
    if B == 1 {
      assert A / B == A;
      assert A == 0x8000_0000 ==> a == MinInt32 && b == 1;
    } else {
      SmallQuotient(A, B);
    }
  }

  /** Dividing by at least two at least halves a natural number. */
  lemma SmallQuotient(A: nat, B: nat)
    requires B >= 2
    ensures 0 <= A / B <= A / 2
  {
    NatDivision(A, B);
    var q := A / B;
    assert q * 2 <= q * B;
  }
}

=== FILE: numerals.dfy ===
/** Decimal text of integers: `Int32.Parse` with the default
    `NumberStyles.Integer` (surrounding white space, one optional sign,
    decimal digits) and `int.ToString()`. */
module Numerals {
  import opened Wrappers
  import opened Ints
  import opened Text

  predicate IsDigit(c: char) {
    '0' <= c <= '9'
  }

  /** The white space `NumberStyles.AllowLeadingWhite`/`AllowTrailingWhite` accept. */
  predicate IsParseSpace(c: char) {
    c == ' ' || ('\t' <= c <= '\r')
  }

  predicate AllDigits(s: string) {
    forall i | 0 <= i < |s| :: IsDigit(s[i])
  }

  function DigitValue(c: char): nat
    requires IsDigit(c)
  {
    c as int - '0' as int
  }

  function DigitChar(d: nat): (c: char)
    requires d < 10
    ensures IsDigit(c) && DigitValue(c) == d
  {
    ('0' as int + d) as char
  }

  /** The value of a digit string, most significant digit first. */
  function DigitsValue(s: string): nat
    requires AllDigits(s)
    decreases |s|
  {
    if |s| == 0 then 0 else DigitsValue(s[..|s| - 1]) * 10 + DigitValue(s[|s| - 1])
  }

  /** A numeral as `NumberStyles.Integer` reads it once the surrounding white
      space is gone: decimal digits, with at most one leading sign. */
  predicate IsNumeral(t: string) {
    (|t| > 0 && AllDigits(t))
    || (|t| > 1 && (t[0] == '-' || t[0] == '+') && AllDigits(t[1..]))
  }

  /** The text between the leading and the trailing white space that
      `Int32.Parse` skips. */
  function Strip(s: string): (t: string)
    ensures |t| <= |s|
    ensures |t| > 0 ==> !IsParseSpace(t[0]) && !IsParseSpace(t[|t| - 1])
    ensures t == "" <==> forall i | 0 <= i < |s| :: IsParseSpace(s[i])
  {
    var front := TrimStart(s, IsParseSpace);
    TrimStartMeaning(s, IsParseSpace);
    TrimEndMeaning(front, IsParseSpace);
    StripsToNothing(s);
    BlankIsNoNumeral(s);
    TrimEnd(front, IsParseSpace)
  }

  /** Only text that is white space throughout strips to nothing. */
  lemma StripsToNothing(s: string)
    ensures TrimEnd(TrimStart(s, IsParseSpace), IsParseSpace) == "" ==>
      forall i | 0 <= i < |s| :: IsParseSpace(s[i])
  {
    var front := TrimStart(s, IsParseSpace);
    TrimStartMeaning(s, IsParseSpace);
    TrimEndMeaning(front, IsParseSpace);
    if TrimEnd(front, IsParseSpace) == "" {
      assert |front| == 0;
    }
  }

  /** The integer a numeral denotes, before any range check; `None` is a
      `FormatException`. */
  function ParseInteger(s: string): (r: Option<int>)
    ensures |s| > 0 && AllDigits(s) ==> r == Some(DigitsValue(s))
    ensures |s| > 1 && s[0] == '-' && AllDigits(s[1..]) ==> r == Some(-(DigitsValue(s[1..]) as int))
    ensures |s| > 1 && s[0] == '+' && AllDigits(s[1..]) ==> r == Some(DigitsValue(s[1..]))
    ensures (forall i | 0 <= i < |s| :: IsParseSpace(s[i])) ==> r.None?
  {
    NoParseSpaceAtEnds(s);
    var t := Strip(s);
    if |t| > 0 && (t[0] == '-' || t[0] == '+') then
      var d := t[1..];
      if |d| > 0 && AllDigits(d) then
        var v: int := DigitsValue(d);
        Some(if t[0] == '-' then -v else v)
      else None
    else if |t| > 0 && AllDigits(t) then Some(DigitsValue(t))
    else None
  }

  /** `Int32.Parse` accepts exactly the text that is a numeral once the
      surrounding white space is skipped, and that white space does not
      change the value. */
  lemma ParseIntegerMeaning(s: string)
    ensures ParseInteger(s).Some? <==> IsNumeral(Strip(s))
    ensures ParseInteger(s) == ParseInteger(Strip(s))
  {
    var t := Strip(s);
    NoParseSpaceAtEnds(t);
    assert Strip(t) == t;
  }

  /** White space around a numeral is skipped: padding text that has visible
      ends with white space on either side strips back to it. */
  lemma StripPadding(a: string, t: string, b: string)
    requires forall i | 0 <= i < |a| :: IsParseSpace(a[i])
    requires forall i | 0 <= i < |b| :: IsParseSpace(b[i])
    requires |t| > 0 && !IsParseSpace(t[0]) && !IsParseSpace(t[|t| - 1])
    ensures Strip(a + t + b) == t
  {
    var s := a + t + b;
    var front := TrimStart(s, IsParseSpace);
    TrimStartMeaning(s, IsParseSpace);
    var k := |s| - |front|;
    assert s[|a|] == t[0];
    assert k <= |a|;
    assert front == t + b;
    TrimEndMeaning(front, IsParseSpace);
    var r := TrimEnd(front, IsParseSpace);
    assert front[|t| - 1] == t[|t| - 1];
    assert |r| >= |t|;
    assert r == front[..|t|] == t;
  }

  /** `Int32.Parse(s)`: a numeral in range, `FormatException` for text that is
      not a numeral, `OverflowException` for a numeral out of range. */
  function Int32Parse(s: string): (r: Result<int32>)
    ensures r.Ok? <==> ParseInteger(s).Some? && MinInt32 <= ParseInteger(s).value <= MaxInt32
    ensures r.Ok? ==> ParseInteger(s) == Some(r.value as int)
    ensures r == Err(BadFormat) <==> ParseInteger(s).None?
    ensures r.Err? ==> r.fault == BadFormat || r.fault == Overflow
  {
    match ParseInteger(s)
    case None => Err(BadFormat)
    case Some(n) => if MinInt32 <= n <= MaxInt32 then Ok(n) else Err(Overflow)
  }

  /** The shortest decimal numeral of a natural number. */
  function NatToString(n: nat): (r: string)
    ensures |r| > 0 && AllDigits(r)
    decreases n
  {
    (if n < 10 then "" else NatToString(n / 10)) + [DigitChar(n % 10)]
  }

  /** `int.ToString()`: a minus sign for negatives, then the digits. */
  function IntToString(n: int): (r: string)
    ensures |r| > 0
    ensures forall i | 0 <= i < |r| :: IsDigit(r[i]) || (i == 0 && r[i] == '-')
  {
    if n < 0 then "-" + NatToString(-n) else NatToString(n)
  }

  lemma {:induction false} NatToStringValue(n: nat)
    ensures DigitsValue(NatToString(n)) == n
    decreases n
  {
    var s := NatToString(n);
    assert s[|s| - 1] == DigitChar(n % 10);
    if n < 10 {
      assert s[..|s| - 1] == "";
    } else {
      NatToStringValue(n / 10);
      assert s[..|s| - 1] == NatToString(n / 10);
    }
  }

  /** Parsing the printed form of any integer gives the integer back. */
  lemma ParseIntegerRoundTrip(n: int)
    ensures ParseInteger(IntToString(n)) == Some(n)
  {
    var d := NatToString(Abs(n));
    NatToStringValue(Abs(n));
    PrintedParses(n, d);
  }

  /** The printed form is the digits of the magnitude, after a minus sign
      for a negative number; such text parses back to the number. */
  lemma PrintedParses(n: int, d: string)
    requires |d| > 0 && AllDigits(d) && DigitsValue(d) == Abs(n)
    requires IntToString(n) == if n < 0 then "-" + d else d
    ensures ParseInteger(IntToString(n)) == Some(n)
  {
    if n < 0 {
      NegativeParses(d);
    } else {
      DigitsParse(d);
    }
  }

  lemma DigitsParse(d: string)
    requires |d| > 0 && AllDigits(d)
    ensures ParseInteger(d) == Some(DigitsValue(d))
  {
  }

  lemma NegativeParses(d: string)
    requires |d| > 0 && AllDigits(d)
    ensures ParseInteger("-" + d) == Some(-(DigitsValue(d) as int))
  {
    assert ("-" + d)[0] == '-' && ("-" + d)[1..] == d;
  }

  lemma NoParseSpaceAtEnds(s: string)
    ensures |s| > 0 && !IsParseSpace(s[0]) && !IsParseSpace(s[|s| - 1]) ==>
      TrimEnd(TrimStart(s, IsParseSpace), IsParseSpace) == s
  {
    if |s| > 0 && !IsParseSpace(s[0]) && !IsParseSpace(s[|s| - 1]) {
      assert TrimStart(s, IsParseSpace) == s;
      assert TrimEnd(s, IsParseSpace) == s;
    }
  }

  /** Text that is white space throughout trims to nothing. */
  lemma BlankIsNoNumeral(s: string)
    ensures (forall i | 0 <= i < |s| :: IsParseSpace(s[i])) ==>
      TrimEnd(TrimStart(s, IsParseSpace), IsParseSpace) == ""
  {
    var front := TrimStart(s, IsParseSpace);
    TrimStartMeaning(s, IsParseSpace);
    if |front| > 0 {
      assert front[0] == s[|s| - |front|];
    }
  }

  /** `Int32.Parse(n.ToString()) == n` for every `int`: what the interpreter
      stores with `ToString` it can always read back. */
  lemma Int32ParseRoundTrip(n: int32)
    ensures Int32Parse(IntToString(n)) == Ok(n)
  {
    ParseIntegerRoundTrip(n);
  }

  /** Printed integers never contain the descriptor separators. */
  lemma IntToStringSeparators(n: int)
    ensures ',' !in IntToString(n) && '|' !in IntToString(n)
  {
    var s := IntToString(n);
    assert forall i | 0 <= i < |s| :: s[i] != ',' && s[i] != '|';
  }
}

=== FILE: store.dfy ===
/** The lexer's output, taken as given: a line becomes a sequence of tokens,
    each a number, an identifier or an operator with its text. */
module Tokens {

  datatype Token = Number(text: string) | Identifier(text: string) | Operator(text: string)

  /** How the lexer splits a line is not part of this model. */
  type Lexer = string -> seq<Token>
}

/** The `Variables` dictionary.  It holds scalars as decimal text and, under
    the method's name, method descriptors `"start,last,a|b"`; nothing tells
    the two apart except how the interpreter reads them. */
module Store {
  import opened Wrappers
  import opened Text
  import opened Numerals
  import opened Tokens

  type Vars = map<string, string>

  // ------------------------------------------------------- method descriptors

  /** The identifiers of a header's tokens, in order. */
  function IdentifierNames(tokens: seq<Token>): (names: seq<string>)
    ensures |names| <= |tokens|
    decreases |tokens|
  {
    if |tokens| == 0 then []
    else (if tokens[0].Identifier? then [tokens[0].text] else []) + IdentifierNames(tokens[1..])
  }

  /** Each identifier's text followed by `|`, as the header loop accumulates it. */
  function PipeTerminated(tokens: seq<Token>): string
    decreases |tokens|
  {
    if |tokens| == 0 then ""
    else (if tokens[0].Identifier? then tokens[0].text + "|" else "") + PipeTerminated(tokens[1..])
  }

  /** The formal-parameter field of a descriptor: the accumulated text with
      its final `|` removed when it is not empty. */
  function FormalText(tokens: seq<Token>): string {
    var raw := PipeTerminated(tokens);
    if raw == "" then raw else raw[..|raw| - 1]
  }

  lemma {:induction false} PipeTerminatedJoin(tokens: seq<Token>)
    ensures |IdentifierNames(tokens)| == 0 ==> PipeTerminated(tokens) == ""
    ensures |IdentifierNames(tokens)| > 0 ==>
      PipeTerminated(tokens) == Join(IdentifierNames(tokens), '|') + "|"
    decreases |tokens|
  {
    if |tokens| > 0 {
      var rest := tokens[1..];
      PipeTerminatedJoin(rest);
      var names := IdentifierNames(rest);
      if tokens[0].Identifier? && |names| > 0 {
        var t := tokens[0].text;
        var all := [t] + names;
        assert all[1..] == names;
        assert Join(all, '|') == t + "|" + Join(names, '|');
        assert IdentifierNames(tokens) == all;
        assert PipeTerminated(tokens) == t + "|" + (Join(names, '|') + "|");
        assert t + "|" + (Join(names, '|') + "|") == (t + "|" + Join(names, '|')) + "|";
      } else if tokens[0].Identifier? {
        assert IdentifierNames(tokens) == [tokens[0].text];
        assert PipeTerminated(tokens) == tokens[0].text + "|";
      } else {
        assert IdentifierNames(tokens) == names;
        assert PipeTerminated(tokens) == PipeTerminated(rest);
      }
    }
  }

  /** The descriptor's formal field is the identifiers joined by `|`, and is
      empty for a header with no identifier after the name. */
  lemma FormalTextJoin(tokens: seq<Token>)
    ensures |IdentifierNames(tokens)| == 0 ==> FormalText(tokens) == ""
    ensures |IdentifierNames(tokens)| > 0 ==>
      FormalText(tokens) == Join(IdentifierNames(tokens), '|')
  {
    PipeTerminatedJoin(tokens);
    var names := IdentifierNames(tokens);
    if |names| > 0 {
      var j := Join(names, '|');
      assert (j + "|")[..|j + "|"| - 1] == j;
    }
  }

  /** The descriptor stored for a method: header line, line before
      `endmethod`, formal text. */
  function Descriptor(start: int, last: int, formals: string): string {
    IntToString(start) + "," + IntToString(last) + "," + formals
  }

  /** What a call or an `endmethod` reads back out of a name's entry. */
  datatype MethodInfo = MethodInfo(startText: string, formals: seq<string>)

  /** `Variables[name].Split(',')`, then field 0 as the start text and field 2
      split on `|` as the formals.  A missing name is a `KeyNotFound`; an entry
      with fewer than three fields (a scalar) indexes past the array. */
  function LookupMethod(vars: Vars, name: string): (r: Result<MethodInfo>)
    ensures name !in vars ==> r == Err(KeyNotFound(name))
    ensures r.Ok? ==> |r.value.formals| > 0
  {
    if name !in vars then Err(KeyNotFound(name))
    else
      var fields := Split(vars[name], ',');
      if |fields| < 3 then Err(IndexOutOfRange)
      else Ok(MethodInfo(fields[0], Split(fields[2], '|')))
  }

  lemma {:induction false} JoinAvoids(parts: seq<string>, sep: char, c: char)
    requires |parts| > 0 && c != sep
    requires forall i | 0 <= i < |parts| :: c !in parts[i]
    ensures c !in Join(parts, sep)
    decreases |parts|
  {
    if |parts| > 1 {
      JoinAvoids(parts[1..], sep, c);
    }
  }

  lemma DescriptorFields(start: int, last: int, formals: string)
    requires ',' !in formals
    ensures Split(Descriptor(start, last, formals), ',') ==
      [IntToString(start), IntToString(last), formals]
  {
    var a, b := IntToString(start), IntToString(last);
    IntToStringSeparators(start);
    IntToStringSeparators(last);
    assert Descriptor(start, last, formals) == a + [','] + (b + [','] + formals);
    SplitCons(a, b + [','] + formals, ',');
    SplitCons(b, formals, ',');
    SplitNone(formals, ',');
  }

  /** A descriptor written for formals `names` reads back as its start line and
      exactly those formals, provided no name holds `,` or `|`. */
  lemma DescriptorRoundTrip(vars: Vars, name: string, start: int, last: int, names: seq<string>)
    requires |names| > 0
    requires forall i | 0 <= i < |names| :: ',' !in names[i] && '|' !in names[i]
    ensures LookupMethod(vars[name := Descriptor(start, last, Join(names, '|'))], name)
            == Ok(MethodInfo(IntToString(start), names))
  {
    JoinAvoids(names, '|', ',');
    DescriptorFields(start, last, Join(names, '|'));
    SplitJoin(names, '|');
  }

  /** A method declared without parameters reads back one empty formal,
      because `"".Split('|')` is `[""]`. */
  lemma EmptyFormalsRoundTrip(vars: Vars, name: string, start: int, last: int)
    ensures LookupMethod(vars[name := Descriptor(start, last, "")], name)
            == Ok(MethodInfo(IntToString(start), [""]))
  {
    DescriptorFields(start, last, "");
  }

  // ------------------------------------------------------ binding, unbinding

  /** `Variables.Remove(p)` for each name in turn. */
  function Unbind(vars: Vars, names: seq<string>): (r: Vars)
    ensures r.Keys == vars.Keys - set i | 0 <= i < |names| :: names[i]
    ensures forall k | k in r :: r[k] == vars[k]
    decreases |names|
  {
    if |names| == 0 then vars else Unbind(vars - {names[0]}, names[1..])
  }

  /** Each formal assigned its actual in order (`Variables[f] = a`, or `Add`
      when absent). */
  function Bind(vars: Vars, formals: seq<string>, actuals: seq<string>): (r: Vars)
    requires |formals| == |actuals|
    ensures r.Keys == vars.Keys + set i | 0 <= i < |formals| :: formals[i]
    ensures forall k | k in vars && k !in formals :: r[k] == vars[k]
    decreases |formals|
  {
    if |formals| == 0 then vars
    else Bind(vars[formals[0] := actuals[0]], formals[1..], actuals[1..])
  }

  predicate Distinct(names: seq<string>) {
    forall i, j | 0 <= i < j < |names| :: names[i] != names[j]
  }

  /** With distinct formals, each formal ends up holding its own actual. */
  lemma {:induction false} BindValues(vars: Vars, formals: seq<string>, actuals: seq<string>)
    requires |formals| == |actuals| && Distinct(formals)
    ensures forall i | 0 <= i < |formals| :: Bind(vars, formals, actuals)[formals[i]] == actuals[i]
    decreases |formals|
  {
    if |formals| > 0 {
      var v := vars[formals[0] := actuals[0]];
      BindValues(v, formals[1..], actuals[1..]);
      assert formals[0] !in formals[1..] by {
        forall j | 0 <= j < |formals[1..]| ensures formals[1..][j] != formals[0] {
          assert formals[1..][j] == formals[j + 1];
        }
      }
      forall i | 1 <= i < |formals|
        ensures Bind(vars, formals, actuals)[formals[i]] == actuals[i]
      {
        assert formals[1..][i - 1] == formals[i];
      }
    }
  }

  /** Binding formals and then removing them leaves the store without those
      names: an earlier value of a formal is lost, not restored. */
  lemma BindThenUnbind(vars: Vars, formals: seq<string>, actuals: seq<string>)
    requires |formals| == |actuals|
    ensures Unbind(Bind(vars, formals, actuals), formals) == vars - set i | 0 <= i < |formals| :: formals[i]
  {
    var b := Bind(vars, formals, actuals);
    var u := Unbind(b, formals);
    var gone := set i | 0 <= i < |formals| :: formals[i];
    assert u.Keys == (vars - gone).Keys;
    forall k | k in u
      ensures u[k] == vars[k]
    {
      assert k !in formals;
    }
  }
}

=== FILE: text.dfy ===
/** The .NET string operations the interpreter relies on, over `seq<char>`:
    ordinal `Contains`, `Split` on one character, `Trim`, `ToLower`,
    `String.IsNullOrWhiteSpace`, and the line pattern `\(.*\)`. */
module Text {

  /** `char.IsWhiteSpace`: the ASCII controls 9..13, space, NEL, NBSP and the
      Unicode space and line/paragraph separators. */
  predicate IsWhiteSpace(c: char) {
    var n := c as int;
    (9 <= n <= 13) || n == 0x20 || n == 0x85 || n == 0xA0 || n == 0x1680
    || (0x2000 <= n <= 0x200A) || n == 0x2028 || n == 0x2029 || n == 0x202F
    || n == 0x205F || n == 0x3000
  }

  /** `String.IsNullOrWhiteSpace` (a Dafny string is never null): the line is
      white space throughout, which is to say trimming leaves nothing. */
  predicate IsBlank(s: string)
    ensures IsBlank(s) <==> Trim(s) == ""
  {
    TrimEmpty(s);
    forall i | 0 <= i < |s| :: IsWhiteSpace(s[i])
  }

  // ---------------------------------------------------------------- Contains

  predicate StartsWith(s: string, prefix: string) {
    |prefix| <= |s| && s[..|prefix|] == prefix
  }

  /** `sub` occurs in `s` starting at index `i`. */
  predicate OccursAt(s: string, sub: string, i: int) {
    0 <= i && i + |sub| <= |s| && s[i..i + |sub|] == sub
  }

  /** Ordinal `String.Contains`, by scanning the start positions left to right. */
  predicate Contains(s: string, sub: string)
    ensures |sub| == 0 ==> Contains(s, sub)
    ensures Contains(s, sub) ==> |sub| <= |s|
    decreases |s|
  {
    StartsWith(s, sub) || (|s| > 0 && Contains(s[1..], sub))
  }

  /** The scan finds `sub` exactly when it occurs at some position. */
  lemma {:induction false} ContainsOccurs(s: string, sub: string)
    ensures Contains(s, sub) <==> exists i :: OccursAt(s, sub, i)
    decreases |s|
  {
    if StartsWith(s, sub) {
      assert OccursAt(s, sub, 0);
    } else if |s| > 0 {
      ContainsOccurs(s[1..], sub);
      if exists i :: OccursAt(s[1..], sub, i) {
        var i :| OccursAt(s[1..], sub, i);
        assert s[1..][i..i + |sub|] == s[i + 1..i + 1 + |sub|];
        assert OccursAt(s, sub, i + 1);
      }
      if exists i :: OccursAt(s, sub, i) {
        var i :| OccursAt(s, sub, i);
        assert i != 0;
        assert s[1..][i - 1..i - 1 + |sub|] == s[i..i + |sub|];
        assert OccursAt(s[1..], sub, i - 1);
      }
    }
  }

  /** A line containing a word contains every tail of it: a line with
      `endmethod` also holds `method`, one with `endif` also holds `if`. */
  lemma ContainsTail(s: string, word: string, k: nat)
    requires k <= |word|
    ensures Contains(s, word) ==> Contains(s, word[k..])
  {
    ContainsOccurs(s, word);
    ContainsOccurs(s, word[k..]);
    if Contains(s, word) {
      var i :| OccursAt(s, word, i);
      assert s[i + k..i + |word|] == s[i..i + |word|][k..];
      assert OccursAt(s, word[k..], i + k);
    }
  }

  /** The closing keywords hold the opening ones: an `endmethod` line is a
      `method` line and an `endif` line an `if` line. */
  lemma KeywordTails(line: string)
    ensures Contains(line, "endmethod") ==> Contains(line, "method")
    ensures Contains(line, "endif") ==> Contains(line, "if")
  {
    ContainsTail(line, "endmethod", 3);
    assert "endmethod"[3..] == "method";
    ContainsTail(line, "endif", 3);
    assert "endif"[3..] == "if";
  }

  /** A line containing a word that starts with a visible character is not blank. */
  lemma ContainsNotBlank(s: string, word: string)
    requires |word| > 0 && !IsWhiteSpace(word[0]) && Contains(s, word)
    ensures !IsBlank(s)
  {
    ContainsOccurs(s, word);
    var i :| OccursAt(s, word, i);
    assert s[i..i + |word|][0] == s[i];
  }

  /** The first index at or after `from` whose line contains `word`, or
      `|lines|` when there is none: the `for (; i < lines.Length; i++) if
      (lines[i].Contains(word)) break;` search. */
  function FirstContaining(lines: seq<string>, from: nat, word: string): (k: nat)
    requires from <= |lines|
    ensures from <= k <= |lines|
    ensures k < |lines| ==> Contains(lines[k], word)
    ensures forall i | from <= i < k :: !Contains(lines[i], word)
    decreases |lines| - from
  {
    if from == |lines| then from
    else if Contains(lines[from], word) then from
    else FirstContaining(lines, from + 1, word)
  }

  // ------------------------------------------------------------- Split, Join

  /** The pieces joined back with the separator in between. */
  function Join(parts: seq<string>, sep: char): string
    requires |parts| > 0
    decreases |parts|
  {
    if |parts| == 1 then parts[0] else parts[0] + [sep] + Join(parts[1..], sep)
  }

  /** `String.Split(char)`: the maximal separator-free pieces, empty ones
      included, so that joining them gives the input back. */
  function Split(s: string, sep: char): (parts: seq<string>)
    ensures 0 < |parts| <= |s| + 1
    ensures Join(parts, sep) == s
    ensures forall i | 0 <= i < |parts| :: sep !in parts[i]
    decreases |s|
  {
    if |s| == 0 then [""]
    else
      var rest := Split(s[1..], sep);
      if s[0] == sep then
        assert Join([""] + rest, sep) == [sep] + Join(rest, sep) by {
          assert ([""] + rest)[1..] == rest;
        }
        [""] + rest
      else
        var parts := [[s[0]] + rest[0]] + rest[1..];
        assert Join(parts, sep) == [s[0]] + Join(rest, sep) by {
          if |rest| > 1 {
            assert parts[1..] == rest[1..];
          }
        }
        parts
  }

  /** A separator-free first piece followed by the separator splits off. */
  lemma {:induction false} SplitCons(w: string, t: string, sep: char)
    requires sep !in w
    ensures Split(w + [sep] + t, sep) == [w] + Split(t, sep)
    decreases |w|
  {
    if |w| == 0 {
      assert w + [sep] + t == [sep] + t;
      assert ([sep] + t)[1..] == t;
    } else {
      SplitCons(w[1..], t, sep);
      assert (w + [sep] + t)[1..] == w[1..] + [sep] + t;
      assert [w[0]] + w[1..] == w;
    }
  }

  /** A separator-free string is its own single piece. */
  lemma {:induction false} SplitNone(w: string, sep: char)
    requires sep !in w
    ensures Split(w, sep) == [w]
    decreases |w|
  {
    if |w| > 0 {
      SplitNone(w[1..], sep);
      assert [w[0]] + w[1..] == w;
    }
  }

  /** Splitting undoes joining when no piece holds the separator. */
  lemma {:induction false} SplitJoin(parts: seq<string>, sep: char)
    requires |parts| > 0
    requires forall i | 0 <= i < |parts| :: sep !in parts[i]
    ensures Split(Join(parts, sep), sep) == parts
    decreases |parts|
  {
    if |parts| == 1 {
      SplitNone(parts[0], sep);
    } else {
      SplitJoin(parts[1..], sep);
      SplitCons(parts[0], Join(parts[1..], sep), sep);
      assert [parts[0]] + parts[1..] == parts;
    }
  }

  /** The pieces concatenated in order. */
  function Concat(parts: seq<string>): string
    decreases |parts|
  {
    if |parts| == 0 then "" else parts[0] + Concat(parts[1..])
  }

  lemma {:induction false} ConcatAppend(a: seq<string>, b: seq<string>)
    ensures Concat(a + b) == Concat(a) + Concat(b)
    decreases |a|
  {
    if |a| == 0 {
      assert a + b == b;
    } else {
      ConcatAppend(a[1..], b);
      assert (a + b)[1..] == a[1..] + b;
    }
  }

  // ------------------------------------------------------------ Trim, lower

  /** Drops the leading characters satisfying `p`. */
  function TrimStart(s: string, p: char -> bool): string
    decreases |s|
  {
    if |s| > 0 && p(s[0]) then TrimStart(s[1..], p) else s
  }

  /** Drops the trailing characters satisfying `p`. */
  function TrimEnd(s: string, p: char -> bool): string
    decreases |s|
  {
    if |s| > 0 && p(s[|s| - 1]) then TrimEnd(s[..|s| - 1], p) else s
  }

  /** What `TrimStart` removes is a run of `p`-characters at the front, and
      what it keeps is a suffix that does not start with one. */
  lemma {:induction false} TrimStartMeaning(s: string, p: char -> bool)
    ensures var r := TrimStart(s, p);
      && |r| <= |s| && r == s[|s| - |r|..]
      && (|r| > 0 ==> !p(r[0]))
      && (forall i | 0 <= i < |s| - |r| :: p(s[i]))
    decreases |s|
  {
    if |s| > 0 && p(s[0]) {
      TrimStartMeaning(s[1..], p);
      var r := TrimStart(s, p);
      assert s[1..][|s| - 1 - |r|..] == s[|s| - |r|..];
      forall i | 1 <= i < |s| - |r|
        ensures p(s[i])
      {
        assert s[1..][i - 1] == s[i];
      }
    }
  }

  /** What `TrimEnd` removes is a run of `p`-characters at the back, and
      what it keeps is a prefix that does not end with one. */
  lemma {:induction false} TrimEndMeaning(s: string, p: char -> bool)
    ensures var r := TrimEnd(s, p);
      && |r| <= |s| && r == s[..|r|]
      && (|r| > 0 ==> !p(r[|r| - 1]))
      && (forall i | |r| <= i < |s| :: p(s[i]))
    decreases |s|
  {
    if |s| > 0 && p(s[|s| - 1]) {
      TrimEndMeaning(s[..|s| - 1], p);
      var r := TrimEnd(s, p);
      assert s[..|s| - 1][..|r|] == s[..|r|];
      forall i | |r| <= i < |s| - 1
        ensures p(s[i])
      {
        assert s[..|s| - 1][i] == s[i];
      }
    }
  }

  /** `String.Trim()`: strips `char.IsWhiteSpace` from both ends, so what is
      left is no longer and neither starts nor ends with white space. */
  function Trim(s: string): (r: string)
    ensures |r| <= |s|
    ensures |r| > 0 ==> !IsWhiteSpace(r[0]) && !IsWhiteSpace(r[|r| - 1])
  {
    var front := TrimStart(s, IsWhiteSpace);
    TrimStartMeaning(s, IsWhiteSpace);
    TrimEndMeaning(front, IsWhiteSpace);
    TrimEnd(front, IsWhiteSpace)
  }

  /** Trimming leaves nothing exactly when every character is white space. */
  lemma TrimEmpty(s: string)
    ensures Trim(s) == "" <==> forall i | 0 <= i < |s| :: IsWhiteSpace(s[i])
  {
    var front := TrimStart(s, IsWhiteSpace);
    TrimStartMeaning(s, IsWhiteSpace);
    TrimEndMeaning(front, IsWhiteSpace);
    if Trim(s) != "" && |front| > 0 {
      assert front[0] == s[|s| - |front|];
    }
  }

  /** Trimming a string whose ends are not white space changes nothing. */
  lemma TrimUntouched(s: string)
    requires |s| > 0 ==> !IsWhiteSpace(s[0]) && !IsWhiteSpace(s[|s| - 1])
    ensures Trim(s) == s
  {
  }

  function LowerChar(c: char): char {
    if 'A' <= c <= 'Z' then (c as int + 32) as char else c
  }

  /** `String.ToLower()` restricted to the ASCII letters. */
  function ToLower(s: string): (r: string)
    ensures |r| == |s|
    ensures forall i | 0 <= i < |s| :: r[i] == LowerChar(s[i])
    ensures forall i | 0 <= i < |r| :: !('A' <= r[i] <= 'Z')
  {
    seq(|s|, i requires 0 <= i < |s| => LowerChar(s[i]))
  }

  /** Lowering twice is lowering once. */
  lemma ToLowerIdempotent(s: string)
    ensures ToLower(ToLower(s)) == ToLower(s)
  {
  }

  // ------------------------------------------------------------ \(.*\)

  /** A match of the pattern `\(.*\)` spanning `s[i..j+1]`: `.` is any
      character but a line feed. */
  predicate ParenGroupAt(s: string, i: int, j: int) {
    0 <= i < j < |s| && s[i] == '(' && s[j] == ')' && forall k | i < k < j :: s[k] != '\n'
  }

  /** A `)` at `j` with no line feed before it. */
  predicate ClosesAt(s: string, j: int) {
    0 <= j < |s| && s[j] == ')' && forall k | 0 <= k < j :: s[k] != '\n'
  }

  /** The left-to-right scan a regex engine performs; `open` records an
      unmatched `(` on the current line. */
  predicate ScanParen(s: string, open: bool)
    decreases |s|
  {
    if |s| == 0 then false
    else if s[0] == ')' && open then true
    else ScanParen(s[1..], if s[0] == '(' then true else if s[0] == '\n' then false else open)
  }

  /** `Regex.Match(line, @"(\(.*\))").Success`. */
  predicate HasParenGroup(s: string) {
    ScanParen(s, false)
  }

  lemma {:induction false} ScanParenMeaning(s: string, open: bool)
    ensures ScanParen(s, open) <==>
      (exists i, j :: ParenGroupAt(s, i, j)) || (open && exists j :: ClosesAt(s, j))
    decreases |s|
  {
    if |s| > 0 {
      var t := s[1..];
      var open' := if s[0] == '(' then true else if s[0] == '\n' then false else open;
      ScanParenMeaning(t, open');
      // a match inside the tail is a match of s shifted by one
      if exists i, j :: ParenGroupAt(t, i, j) {
        var i, j :| ParenGroupAt(t, i, j);
        assert ParenGroupAt(s, i + 1, j + 1);
      }
      if open' && exists j :: ClosesAt(t, j) {
        var j :| ClosesAt(t, j);
        if s[0] == '(' {
          assert ParenGroupAt(s, 0, j + 1);
        } else {
          assert ClosesAt(s, j + 1);
        }
      }
      if s[0] == ')' && open {
        assert ClosesAt(s, 0);
      }
      // and conversely
      if exists i, j :: ParenGroupAt(s, i, j) {
        var i, j :| ParenGroupAt(s, i, j);
        if i == 0 {
          assert ClosesAt(t, j - 1);
        } else {
          assert ParenGroupAt(t, i - 1, j - 1);
        }
      }
      if open && exists j :: ClosesAt(s, j) {
        var j :| ClosesAt(s, j);
        if j > 0 {
          assert ClosesAt(t, j - 1);
        }
      }
    }
  }

  /** The scan succeeds exactly when the line holds a `(` followed later by a
      `)` with no line feed between them. */
  lemma HasParenGroupMeaning(s: string)
    ensures HasParenGroup(s) <==> exists i, j :: ParenGroupAt(s, i, j)
  {
    ScanParenMeaning(s, false);
  }
}

=== FILE: wrappers.dfy ===
/** Failure-carrying datatypes shared by the whole interpreter model.

    The interpreter is written in C#; every exception it does not catch ends a
    run.  Those exceptions are the constructors of `Fault`.  `Result` is used
    where a throw leaves nothing behind, `Outcome` where the computation has
    already changed its state when it throws.
 */
module Wrappers {

  datatype Option<+T> = None | Some(value: T)

  /** The .NET exceptions the interpreter lets escape. */
  datatype Fault =
    | KeyNotFound(key: string)   // Dictionary indexer on an absent key
    | DuplicateKey(key: string)  // Dictionary.Add on a present key
    | DivideByZero               // integer `/` or `%` by zero
    | Overflow                   // Int32.Parse out of range, MinValue / -1, MinValue % -1
    | BadFormat                  // Int32.Parse on text that is not an integer
    | BadRange                   // List indexer or GetRange outside the list
    | IndexOutOfRange            // array indexer outside the array
    | EmptyQueue                 // Queue.Dequeue on an empty queue

  datatype Result<+T> = Ok(value: T) | Err(fault: Fault) {

    predicate IsFailure() {
      Err?
    }

    function PropagateFailure<U>(): Result<U>
      requires Err?
    {
      Err(fault)
    }

    function Extract(): T
      requires Ok?
    {
      value
    }
  }

  /** A computation over a state `S` that either completes or is cut short by a
      fault; in both cases `state` is the state at the point it stopped. */
  datatype Outcome<+S> = Normal(state: S) | Abrupt(fault: Fault, state: S)
}
